=== FILE: README.md ===
# ekeko backtrader core in Dafny

This project models the portfolio-simulation core of the ekeko backtester. That core is the
order, position and ledger logic of `ekeko/backtrader/broker.py` and the calendar and
date-by-date driver of `ekeko/backtrader/engine.py`. The model covers:

- **Orders and transactions** (`orders.dfy`). The order enums and the `Order`/`Transaction`
  records. A transaction is *priced* when its cost is its signed notional less the commission.
- **Execution** (`execution.dfy`). The price lookups of `StockDFWrapper`, with slippage given
  as a function from a price row to a price (the default fills at the close). Also the
  `OrderProcessor`, which decides whether an order can execute on a date and turns it into a
  transaction. The commission is a flat amount per transaction, as the code computes it.
- **Positions and trades** (`positions.dfy`). Matching an open transaction with a later
  opposite one of equal quantity, realising the `Trade`, and the closing order a position
  would need.
- **The account** (`accounts.dfy`). A value `Ledger` (calendar, `cash` and `open_position`
  columns, transaction/position/trade lists, stale-value cache) with a specification function
  per operation. The class `Account` holds the same state in fields that its methods update in
  place. Each method is proved to compute its specification function. A pandas NaN cell is a
  date missing from the column map. So the model keeps pandas' behaviour:
  - `NaN + cost < 0` is false, so the transaction is applied and the cash stays NaN;
  - carrying a NaN forward clears the next date;
  - `min(cash, NaN)` is the cash.
- **The broker** (`brokers.dfy`). The FIFO queue: on a date, the executable orders are picked
  first, executed one by one in queue order and removed by value. Then the date's ledger row is
  updated, and only then are new orders appended. The `BrokerBuilder` fills in the default
  slippage.
- **The engine** (`engines.dfy`). The calendar as the sorted union of every ticker's dates, the
  signals from one strategy evaluation per ticker, the per-ticker trader call, and the run loop
  over the calendar. Strategy, trader and the near-expiration close-out are function
  parameters. The whole run is proved to equal a fold of one-day steps over the calendar.

Proved across modules:

- cash never goes negative if it starts non-negative;
- every recorded transaction stands, copy for copy, as an open position or as one half of a
  trade (so the transaction count equals open positions plus twice the trades);
- orders submitted on a date never execute that date;
- a trade's PnL is the net cash its two transactions moved.

`engine.py` calls `broker.update(date)` with the date only, plus `add_orders` and
`add_closing_orders_for_near_expiration_positions`. `broker.py` defines only
`update(new_orders, date)` and neither of the other two. The model reads the loop as the
evident intent:

- `update` with no new orders;
- `add_orders` as the queue append of `update`;
- the near-expiration close-out as an opaque function whose orders are appended to the queue.

A comment in `examples/debug_cached.py:223` calls the commission a rate. The code subtracts a
flat commission per transaction (`broker.py:120`), and the model follows the code.

The stale-value cache of `__update_open_position` keeps one value per ticker: the value of that
ticker's last position in list order. With several positions on one ticker, a date without a
price marks each of them at that one value. `StaleMarkRepeatsLastPosition` proves this for two
long positions: `close*(q1 + q2)` on the priced date, then `2*close*q2` on the next unpriced
date. The model reproduces this behaviour as written.

## Model

| member | source | states |
|---|---|---|
| Lists.RemoveFirst | ekeko/backtrader/broker.py:249 | `list.remove`: when the value is present the list loses exactly one element; when absent the list is unchanged |
| Lists.RemoveFirstTakesOne | ekeko/backtrader/broker.py:249 | exactly one copy of the removed value leaves (multiset difference) and no new element appears |
| Lists.RemoveFirstCutsAtIndex | ekeko/backtrader/broker.py:306 | removal cuts the list at the first occurrence of the value; the elements before and after keep their order |
| Lists.IndexOf | ekeko/backtrader/broker.py:260 | `get_loc` returns a position of the index that holds the date |
| Lists.IndexOfIsFirst | ekeko/backtrader/broker.py:260 | the position returned is that of the first occurrence |
| Orders.OrderAction.Opposite | ekeko/backtrader/broker.py:188-190 | the closing action always differs from the opening one |
| Orders.Order.IsBuy | ekeko/backtrader/broker.py:31-33 | the order's action is BUY; `Orders.SignedNotional` and `Execution.OrderProcessor.ValueAt` state its effect on cost and value |
| Orders.Order.IsSell | ekeko/backtrader/broker.py:35-37 | the order's action is SELL; `Positions.Position.Close` states its effect on pnl |
| Orders.Order.IsStock | ekeko/backtrader/broker.py:39-41 | the instrument is a stock, which every order is; `Execution.OrderProcessor.CanExecuteOrder` states its use |
| Orders.Order.IsMarket | ekeko/backtrader/broker.py:43-45 | the order type is market, which every order is; `Positions.Position.GetClosingOrder` states that closing orders are market orders |
| Orders.SignedNotional | ekeko/backtrader/broker.py:119-120 | the signed notional: minus price times quantity for a BUY, plus for a SELL; `CostDirection` states its sign |
| Orders.CostDirection | ekeko/backtrader/broker.py:116-121 | for a priced transaction a BUY costs at least the commission, a SELL loses at most the commission, and the commission lowers the cash effect by exactly its amount in both directions |
| Execution.SlippageOnClose | ekeko/backtrader/broker.py:65-68 | the default slippage fills at the row's close; `FillAtCloseCostsOnlyCommission` states its consequence |
| Execution.StockData.HasRecord | ekeko/backtrader/broker.py:76-77 | an order's ticker has a record on a date exactly when the date is a key of its frame |
| Execution.StockData.ValueAtClose | ekeko/backtrader/broker.py:79-81 | the close of the ticker's row on the date; `ValueAt` states its use |
| Execution.StockData.WithSlippage | ekeko/backtrader/broker.py:83-85 | the slippage model applied to the ticker's row on the date; `TransactionCost` states its use |
| Execution.OrderProcessor.CanExecuteOrder | ekeko/backtrader/broker.py:106-114 | a stock market order can execute exactly on the dates its ticker has a record; `Brokers.Executable` and `Brokers.Waiting` state the split of the queue by it |
| Execution.OrderProcessor.TransactionCost | ekeko/backtrader/broker.py:116-121 | the execution price is the slippage price of the day's row; the cost is `-price*qty - commission` for a BUY and `price*qty - commission` for a SELL |
| Execution.OrderProcessor.ProcessOrder | ekeko/backtrader/broker.py:99-102 | the transaction carries the order, the date and the flat commission, fills at the slippage price, and is priced |
| Execution.OrderProcessor.ValueAt | ekeko/backtrader/broker.py:123-126 | the marked value is `+close*qty` for a long (BUY) order and `-close*qty` for a short one |
| Execution.FillAtCloseCostsOnlyCommission | ekeko/backtrader/broker.py:116-126 | with the default slippage an order fills at the close, and its cost plus its marked value is exactly minus the commission |
| Positions.Position.Close | ekeko/backtrader/broker.py:158-179 | given a closing transaction, the trade holds both transactions and the summed commission; pnl-without-commission is `(close - open)*qty`, negated for a short, and pnl is that less the commission |
| Positions.Position.GetClosingOrder | ekeko/backtrader/broker.py:183-191 | a stock market order on the same ticker, for the same quantity, with the opposite action, dated `date` |
| Positions.Position.IsClosedBy | ekeko/backtrader/broker.py:145-156 | both stock orders, same ticker, equal quantity and opposite actions; `ClosedBySymmetric`, `ClosingOrderCloses` and `QuantityMismatchNeverCloses` state its consequences |
| Positions.ClosedBySymmetric | ekeko/backtrader/broker.py:145-156 | a position opened by `a` is closed by `b` exactly when one opened by `b` is closed by `a` |
| Positions.ClosingOrderCloses | ekeko/backtrader/broker.py:145-156 | any transaction of a position's own closing order closes that position |
| Positions.QuantityMismatchNeverCloses | ekeko/backtrader/broker.py:145-156 | a transaction of a different quantity never closes a position |
| Positions.TradePnlIsNetCash | ekeko/backtrader/broker.py:158-179 | for priced transactions the trade's pnl equals opening cost plus closing cost |
| Accounts.Opened | ekeko/backtrader/broker.py:202-215 | a new ledger is well formed and `Counted` (no transactions, positions or trades), and its cash is non-negative when the initial cash is |
| Accounts.LastMatch | ekeko/backtrader/broker.py:243-246 | the scan settles on the last position in list order that the transaction closes, or on none when no position matches |
| Accounts.AfterTransaction | ekeko/backtrader/broker.py:232-253 | the ledger after `add_transaction`; `DroppedChangesNothing`, `AppliedTransaction` and `AfterTransactionKeepsLedger` state what it does |
| Accounts.Dropped | ekeko/backtrader/broker.py:233-237 | the funds guard: the date's cash is a number and the cost would take it below zero; `DroppedChangesNothing` and `AppliedTransaction` state both outcomes |
| Accounts.DroppedChangesNothing | ekeko/backtrader/broker.py:233-237 | a transaction the date's cash cannot pay for leaves the whole ledger unchanged |
| Accounts.AppliedTransaction | ekeko/backtrader/broker.py:239-253 | an applied transaction is appended and moves the date's cash by its cost (NaN stays NaN). It then either opens one new position, or removes one copy of the last matching position and appends its trade |
| Accounts.AfterTransactionKeepsLedger | ekeko/backtrader/broker.py:232-253 | adding a transaction keeps the ledger well formed, keeps cash non-negative and keeps every transaction accounted for as an open position or one half of a trade |
| Accounts.CountedBalances | ekeko/backtrader/broker.py:210-212 | in a `Counted` ledger the transaction count is open positions plus twice the trades, and every open position and both halves of every trade are recorded transactions |
| Accounts.AppliedKeepsCounted | ekeko/backtrader/broker.py:239-253 | an applied transaction becomes a new open position, or, with the position it closes, the two halves of the new trade, so the multiset link between transactions, positions and trades is kept |
| Accounts.RemovedPositionLeaves | ekeko/backtrader/broker.py:249 | removing a position by value takes exactly one copy of its transaction out of the open positions' transactions |
| Accounts.AfterTransactionKeepsKnown | ekeko/backtrader/broker.py:241-253 | open positions keep tickers that have a price frame |
| Accounts.CarriedCash | ekeko/backtrader/broker.py:259-265 | the cash column after carrying the date's cash to the next calendar date; `CarryForward` states what changes and what does not |
| Accounts.CarryForward | ekeko/backtrader/broker.py:259-265 | the next calendar date gets this date's cash (cleared if NaN), no other date changes, and nothing is written after the last date |
| Accounts.MarkPosition | ekeko/backtrader/broker.py:270-277 | one position of the marking loop: at the close when its ticker has a record (caching that value), otherwise at the cached value or zero |
| Accounts.MarkAll | ekeko/backtrader/broker.py:267-278 | the marking loop over the positions in list order; `MarkAllValue` and `MarkAllCache` state its total and its cache |
| Accounts.LastOn | ekeko/backtrader/broker.py:269-274 | the last position on a ticker in list order, or none; the one whose value the cache keeps |
| Accounts.MarkAllValue | ekeko/backtrader/broker.py:267-278 | for any mix of priced and unpriced tickers, the open value is the sum of signed close values for priced tickers and of the cache entries as they stood before the pass (zero if none) for the others |
| Accounts.MarkAllCache | ekeko/backtrader/broker.py:267-278 | after the pass the cache maps every priced ticker with a position to the value of its last position in list order; every other entry is unchanged |
| Accounts.StaleMarkRepeatsLastPosition | ekeko/backtrader/broker.py:267-278 | two long positions on one ticker are marked `close*(q1 + q2)` on a priced date and `2*close*q2` on the next unpriced one, since the cache keeps only the last position's value |
| Accounts.Revalued | ekeko/backtrader/broker.py:255-278 | the ledger after `update_cash_and_open_value`; `RevaluedKeepsLedger`, `CarryForward`, `MarkAllValue` and `MarkAllCache` state its cash, open value and cache |
| Accounts.RevaluedKeepsLedger | ekeko/backtrader/broker.py:255-278 | a row update keeps the ledger well formed and cash non-negative, and leaves transactions, positions and trades unchanged |
| Accounts.Account.constructor | ekeko/backtrader/broker.py:202-215 | the account starts as `Opened(initialCash, timeIndex)` |
| Accounts.Account.GetCash | ekeko/backtrader/broker.py:217-219 | the cash of the date, absent exactly when the cell is NaN |
| Accounts.Account.GetValue | ekeko/backtrader/broker.py:221-225 | cash plus open value, absent exactly when either cell is NaN |
| Accounts.Account.GetMinOfCashAndValue | ekeko/backtrader/broker.py:227-230 | the smaller of cash and value and never above the cash. When the value is NaN, Python's `min` keeps the cash |
| Accounts.Account.LastClosedBy | ekeko/backtrader/broker.py:243-246 | the loop over the positions finds `LastMatch` |
| Accounts.Account.AddTransaction | ekeko/backtrader/broker.py:232-253 | the new state is `AfterTransaction` of the old one, and the account stays well formed |
| Accounts.Account.UpdateCashAndOpenValue | ekeko/backtrader/broker.py:255-257 | the new state is `Revalued` of the old one |
| Accounts.Account.UpdateCash | ekeko/backtrader/broker.py:259-265 | only the cash column changes, to `CarriedCash` of the old ledger |
| Accounts.Account.UpdateOpenPosition | ekeko/backtrader/broker.py:267-278 | only the date's open value and the cache change, to the result of marking the positions in list order |
| Brokers.Executable | ekeko/backtrader/broker.py:298-301 | the picked orders all execute on the date and keep their tickers known |
| Brokers.Waiting | ekeko/backtrader/broker.py:297-306 | the orders left waiting cannot execute on the date |
| Brokers.QueuePartition | ekeko/backtrader/broker.py:297-306 | every queued order is either picked or left waiting, never both and never neither (multiset) |
| Brokers.ExecutableAppend | ekeko/backtrader/broker.py:298-301 | picking distributes over concatenation, so the selection scan can go one order at a time |
| Brokers.WaitingAppend | ekeko/backtrader/broker.py:303-306 | the orders left waiting keep their queue order: splitting the queue splits them the same way |
| Brokers.DequeueNext | ekeko/backtrader/broker.py:303-306 | removing the next picked order by value takes exactly it out of the queue; no earlier waiting order can equal it |
| Brokers.DequeueAll | ekeko/backtrader/broker.py:303-306 | once every picked order is removed, exactly the waiting orders remain, in queue order |
| Brokers.ExecuteAllNext | ekeko/backtrader/broker.py:303-305 | executing one more picked order is one more `AfterTransaction` |
| Brokers.ExecuteAll | ekeko/backtrader/broker.py:303-305 | the ledger after executing the picked orders one by one; `ExecuteAllKeepsLedger` states what it keeps |
| Brokers.ExecuteAllKeepsLedger | ekeko/backtrader/broker.py:303-305 | executing a batch keeps the ledger well formed, keeps cash non-negative and keeps every transaction accounted for as an open position or a trade half (`Counted`) |
| Brokers.Updated | ekeko/backtrader/broker.py:311-314 | the broker after `update(new_orders, date)`; `UpdatedKeepsBroker` and `NoSameDayExecution` state what it does |
| Brokers.UpdatedKeepsBroker | ekeko/backtrader/broker.py:311-314 | an update keeps the broker well formed, cash non-negative and every transaction accounted for (`Counted`). Every executable order leaves the queue, whether its transaction was applied or dropped |
| Brokers.NoSameDayExecution | ekeko/backtrader/broker.py:311-314 | the ledger after `update(new_orders, D)` does not depend on `new_orders` |
| Brokers.Broker.constructor | ekeko/backtrader/broker.py:283-295 | the queue starts empty, and without a slippage model the processor fills at the close |
| Brokers.Broker.SelectExecutable | ekeko/backtrader/broker.py:298-301 | the selection loop returns `Executable` of the queue |
| Brokers.Broker.Fill | ekeko/backtrader/broker.py:304-306 | the order's transaction goes to the account and the order leaves the queue by value |
| Brokers.Broker.ProcessQueue | ekeko/backtrader/broker.py:297-306 | the queue becomes `Waiting` of the old queue, and the account becomes the picked batch executed in order |
| Brokers.Broker.UpdateAccount | ekeko/backtrader/broker.py:308-309 | the account becomes `Revalued` of the old one |
| Brokers.Broker.Update | ekeko/backtrader/broker.py:311-314 | the broker state becomes `Updated` of the old one |
| Brokers.Broker.AddOrders | ekeko/backtrader/broker.py:314 | the orders are appended behind the queue and nothing else changes |
| Brokers.BrokerBuilder.constructor | ekeko/backtrader/broker.py:317-322 | the builder holds the cash, the commission, the frames and the optional slippage |
| Brokers.BrokerBuilder.Build | ekeko/backtrader/broker.py:324-330 | without a slippage model the builder records the close-price default. The new broker has a fresh account opened with the initial cash on the calendar and an empty queue |
| Engines.DatesOf | ekeko/backtrader/engine.py:54-58 | the union of the tickers' dates, folded in list order; `DatesOfMembers` states its members |
| Engines.DatesOfMembers | ekeko/backtrader/engine.py:54-58 | a date is in the folded union exactly when some listed ticker's frame has it |
| Engines.MinimumExists | ekeko/backtrader/engine.py:58-60 | every non-empty set of dates has a least element |
| Engines.SortedDates | ekeko/backtrader/engine.py:58-60 | the dates of the union listed strictly increasing, with no date added or lost |
| Engines.TimeIndexUnion | ekeko/backtrader/engine.py:54-63 | the calendar is strictly increasing, every ticker date is in it and every calendar date comes from some ticker |
| Engines.InitSignalDfs | ekeko/backtrader/engine.py:65-71 | one signal frame per ticker, each the strategy evaluated on that ticker's frame |
| Engines.OpenPositionsFor | ekeko/backtrader/engine.py:79-83 | exactly the account positions on the ticker, and no more of them than there are positions |
| Engines.OpenPositionsForOne | ekeko/backtrader/engine.py:79-83 | a single position is kept exactly when it is on the ticker |
| Engines.OpenPositionsForAppend | ekeko/backtrader/engine.py:79-83 | filtering a concatenation concatenates the filtered parts, so account order and duplicates are kept |
| Engines.Engine.TickersHaveSignals | ekeko/backtrader/engine.py:92 | every ticker the loop visits has a signal frame |
| Engines.Engine.constructor | ekeko/backtrader/engine.py:45-52 | the calendar is the ticker-date union, the signals are the strategy's, and the broker starts with an opened account and an empty queue |
| Engines.Engine.GetOrders | ekeko/backtrader/engine.py:73-87 | no orders on a date without a signal row. Otherwise the trader's orders for that signal row, that price row and exactly the ticker's open positions |
| Engines.Engine.Gathered | ekeko/backtrader/engine.py:97-98 | the orders of every listed ticker, concatenated in list order; `CollectOrders` computes it and `GatheredKnown` states that the broker can look its orders up |
| Engines.Engine.GatheredKnown | ekeko/backtrader/engine.py:97-98 | a trader that orders only tickers with a frame when called on such a ticker with that ticker's positions (`TraderSound`) yields gathered orders the broker can look up |
| Engines.Engine.DayStep | ekeko/backtrader/engine.py:91-104 | one date of the run: update, gather from the updated ledger, queue unless the second-to-last date, then the close-out's orders; `DayStepKeeps` states what it keeps |
| Engines.Engine.DayStepKeeps | ekeko/backtrader/engine.py:91-104 | one day keeps the broker well formed, cash non-negative and every transaction accounted for (`Counted`) |
| Engines.Engine.RunOver | ekeko/backtrader/engine.py:91-104 | the broker after any prefix of the calendar is well formed and keeps its calendar |
| Engines.Engine.RunOverNext | ekeko/backtrader/engine.py:91 | visiting one more calendar date is one more day step |
| Engines.Engine.RunKeepsLedger | ekeko/backtrader/engine.py:91-104 | over a whole run, cash stays non-negative and the transactions stay, copy for copy, the open positions' transactions plus both halves of every trade |
| Engines.Engine.CollectOrders | ekeko/backtrader/engine.py:97-98 | the orders of every ticker, concatenated in the signal dict's key order |
| Engines.Engine.Step | ekeko/backtrader/engine.py:92-104 | one date: update the broker first, gather orders from the updated account, queue them unless it is the second-to-last date, then queue the close-out's orders |
| Engines.Engine.Run | ekeko/backtrader/engine.py:89-104 | every calendar date is visited once, in calendar order: the final broker is the fold of day steps over the calendar |
| Engines.ClosingOrders | tests/test_engine_with_missing_dates.py:54-56 | one closing order per position, in order, on the position's ticker with the opposite action |
| Engines.BuyOneSellAll | tests/test_engine_with_missing_dates.py:27-58 | the test trader: one share bought at market on a buy signal with no open position, and every open position closed on a sell signal; `BuyOneSellAllSound` states that the engine theorems apply to it |
| Engines.BuyOneSellAllSound | tests/test_engine_with_missing_dates.py:27-58 | the test trader meets `TraderSound` for any frames, so the engine's constructor, `Run` and `RunKeepsLedger` accept it |

## Left out

- The near-expiration close-out (`add_closing_orders_for_near_expiration_positions`) has no
  implementation in `broker.py`. It is an opaque function of the ledger and the date whose
  orders are appended to the queue. Its rule is not modelled, so the last rows of the ledger in
  `tests/test_engine_with_missing_dates.py:70-71` are not derived.
- `Engines.Engine.Step`: the trader and the close-out receive a snapshot of the ledger. In
  Python they receive the live `Account` object and could change it; the model does not
  capture such changes.
- The engine's calls to `update(date)` and `add_orders` are read as `update([], date)` followed
  by the queue append of `broker.py:314`. As written, the one-argument call does not match
  `update(new_orders, date)`, and `add_orders` is not defined in `broker.py`.
- An unknown ticker raises `KeyError` in every pandas lookup (`has_record` at
  `broker.py:77` first). The model states this as a precondition that every queued order and
  open position has a price frame.
- Engines.Engine.constructor: requires `TraderSound` and `HookSound`. The trader must order only
  tickers with a price frame when called as `__get_orders` calls it: on a ticker of the signal
  dict, shown only that ticker's open positions. The close-out must do so whenever every open
  position has a frame. A trader that orders another ticker makes the source raise `KeyError`
  at `broker.py:77` on the next update; the model does not follow that error path. The test
  trader meets the condition (`Engines.BuyOneSellAllSound`).
- `OrderBuilder` is not part of this model; `Engines.BuyOneSellAll` writes its stock market buy
  order out directly.
- The exception branches for non-stock or non-market orders cannot be reached, because the
  enums have one member each. The model's enums likewise have one constructor each.
- Relative gain is read by the report but is not a field of `Trade`, and it is not modelled.
- Reporting, statistics, plotting, data loading, screening, the optimizer, the `backtrader`
  wrappers and the draft `orders.py`/`order.py` are not part of this model.
- Floating point is modelled as `real`, with no rounding. Dates are integers; only their order
  matters.
- `Account.tickers` is written in the constructor and never read; it is not modelled.
- Engines.Engine.Run: requires a calendar of at least two dates (so do `Step`, `DayStep` and
  `RunOver`). With one date, `time_index[-2]` at `engine.py:100` raises IndexError; that error
  path is not modelled.
- Engines.Engine.constructor: requires at least one ticker date, and `Accounts.Opened` and
  `Accounts.Account.constructor` require a non-empty calendar. An empty calendar makes the
  first-row write at `broker.py:207` raise IndexError; that error path is not modelled.
- Engines.Engine.constructor: requires the strategy to date signals only on the ticker's price
  dates. A signal row dated outside the price frame makes the price lookup at
  `engine.py:78` raise KeyError; that error path is not modelled.
- `Run` returns nothing: the `Report` built from the account is not part of this model.
- The `tqdm` progress bar and the drop message printed by `add_transaction` are left out.
- `SortedDates` lists the union of the dates in increasing order. pandas' `Index.union` returns
  the other side unchanged when one side is empty or both are equal, so the calendar is sorted
  only because every frame's index already is. Price frames are assumed sorted with unique
  dates: a `Frame` is a map from date to row. The calendar's timezone handling is not
  modelled.

=== FILE: accounts.dfy ===
/** The account (ekeko/backtrader/broker.py, Account): a date-indexed ledger of cash and
    open-position value plus the transaction, position and trade lists.

    The ledger is the value `Ledger`; the class `Account` holds the same state in fields that
    its methods update in place, and each method is proved to compute its specification
    function. A date missing from `cash` or `openPosition` is a row pandas still holds
    as NaN (never written). */
module Accounts {
  import opened Lists
  import opened MarketData
  import opened Orders
  import opened Execution
  import opened Positions

  datatype Ledger = Ledger(
    index: seq<Date>,
    cash: map<Date, real>,
    openPosition: map<Date, real>,
    transactions: seq<Transaction>,
    positions: seq<Position>,
    trades: seq<Trade>,
    cache: map<Ticker, real>)

  /** The ledger's rows are the dates of its index, which has no duplicate dates. */
  ghost predicate Wf(l: Ledger)
  {
    && |l.index| > 0 && Distinct(l.index)
    && (forall d :: d in l.cash ==> d in l.index)
    && (forall d :: d in l.openPosition ==> d in l.index)
  }

  predicate CashNonNegative(l: Ledger)
  {
    forall d :: d in l.cash ==> l.cash[d] >= 0.0
  }

  /** The transactions that open the positions, in list order. */
  function OpenTransactions(ps: seq<Position>): (ts: seq<Transaction>)
  {
    seq(|ps|, i requires 0 <= i < |ps| => ps[i].transaction)
  }

  /** The opening and closing transactions of the trades, with multiplicity. */
  function TradeHalves(trades: seq<Trade>): (halves: multiset<Transaction>)
  {
    if trades == [] then multiset{}
    else
      var last := trades[|trades| - 1];
      TradeHalves(trades[..|trades| - 1]) + multiset{last.opening, last.closing}
  }

  /** Every recorded transaction either still stands as an open position or is one half of a
      trade, copy for copy. */
  predicate Counted(l: Ledger)
  {
    multiset(l.transactions) == multiset(OpenTransactions(l.positions)) + TradeHalves(l.trades)
  }

  lemma {:induction false} TradeHalvesSize(trades: seq<Trade>)
    ensures |TradeHalves(trades)| == 2 * |trades|
  {
    if trades != [] {
      TradeHalvesSize(trades[..|trades| - 1]);
    }
  }

  /** A ledger that accounts for every transaction records as many transactions as open
      positions plus twice the trades; every open position stands on a recorded transaction,
      and so do both halves of every trade. */
  lemma {:induction false} CountedBalances(l: Ledger)
    requires Counted(l)
    ensures |l.transactions| == |l.positions| + 2 * |l.trades|
    ensures forall i :: 0 <= i < |l.positions| ==> l.positions[i].transaction in l.transactions
    ensures forall i :: 0 <= i < |l.trades| ==>
      l.trades[i].opening in l.transactions && l.trades[i].closing in l.transactions
  {
    TradeHalvesSize(l.trades);
    var m := multiset(l.transactions);
    assert |m| == |l.transactions|;
    assert |multiset(OpenTransactions(l.positions))| == |l.positions|;
    forall i | 0 <= i < |l.positions|
      ensures l.positions[i].transaction in l.transactions
    {
      assert OpenTransactions(l.positions)[i] == l.positions[i].transaction;
      assert l.positions[i].transaction in multiset(OpenTransactions(l.positions));
      assert l.positions[i].transaction in m;
    }
    forall i | 0 <= i < |l.trades|
      ensures l.trades[i].opening in l.transactions && l.trades[i].closing in l.transactions
    {
      TradeHalvesHas(l.trades, i);
      assert l.trades[i].opening in m && l.trades[i].closing in m;
    }
  }

  lemma {:induction false} TradeHalvesHas(trades: seq<Trade>, i: nat)
    requires i < |trades|
    ensures trades[i].opening in TradeHalves(trades) && trades[i].closing in TradeHalves(trades)
  {
    if i < |trades| - 1 {
      TradeHalvesHas(trades[..|trades| - 1], i);
    }
  }

  predicate PositionsKnown(ps: seq<Position>, frames: map<Ticker, Frame>)
  {
    forall i :: 0 <= i < |ps| ==> ps[i].Ticker() in frames
  }

  /** The ledger of a new account: the initial cash and a zero open value on the first date. */
  function Opened(initialCash: real, index: seq<Date>): (l: Ledger)
    requires |index| > 0 && Distinct(index)
    ensures Wf(l) && Counted(l) && (initialCash >= 0.0 ==> CashNonNegative(l))
  {
    Ledger(index, map[index[0] := initialCash], map[index[0] := 0.0], [], [], [], map[])
  }

  // ---------------------------------------------------------------------------------------
  // Adding a transaction

  /** Funds guard: the transaction would leave cash below zero. A NaN cash row compares as
      false, so such a transaction is never dropped. */
  predicate Dropped(l: Ledger, t: Transaction)
  {
    t.executionDate in l.cash && l.cash[t.executionDate] + t.cost < 0.0
  }

  /** The position the account's scan settles on: the LAST one in list order that `t` closes. */
  function LastMatch(ps: seq<Position>, t: Transaction): (r: Option<nat>)
    ensures r.Some? ==> r.value < |ps| && ps[r.value].IsClosedBy(t)
    ensures r.Some? ==> forall j :: r.value < j < |ps| ==> !ps[j].IsClosedBy(t)
    ensures r.None? ==> forall j :: 0 <= j < |ps| ==> !ps[j].IsClosedBy(t)
  {
    if ps == [] then None
    else if ps[|ps| - 1].IsClosedBy(t) then Some(|ps| - 1)
    else LastMatch(ps[..|ps| - 1], t)
  }

  function AfterTransaction(l: Ledger, t: Transaction): (r: Ledger)
  {
    if Dropped(l, t) then l
    else
      var d := t.executionDate;
      var cash := if d in l.cash then l.cash[d := l.cash[d] + t.cost] else l.cash;
      var l' := l.(cash := cash, transactions := l.transactions + [t]);
      match LastMatch(l.positions, t)
      case Some(i) =>
        l'.(positions := RemoveFirst(l.positions, l.positions[i]),
            trades := l.trades + [l.positions[i].Close(t)])
      case None =>
        l'.(positions := l.positions + [Position(t)])
  }

  /** A dropped transaction changes nothing at all. */
  lemma DroppedChangesNothing(l: Ledger, t: Transaction)
    requires Dropped(l, t)
    ensures AfterTransaction(l, t) == l
  {
  }

  /** An applied transaction is recorded, moves cash on its date by its cost, and either opens
      one new position or closes the last matching one into exactly one new trade. */
  lemma AppliedTransaction(l: Ledger, t: Transaction)
    requires !Dropped(l, t)
    ensures var r := AfterTransaction(l, t);
      && r.transactions == l.transactions + [t]
      && (t.executionDate in l.cash ==> r.cash == l.cash[t.executionDate := l.cash[t.executionDate] + t.cost])
      && (t.executionDate !in l.cash ==> r.cash == l.cash)
      && r.openPosition == l.openPosition && r.cache == l.cache && r.index == l.index
      && (LastMatch(l.positions, t).None? ==>
            r.positions == l.positions + [Position(t)] && r.trades == l.trades)
      && (LastMatch(l.positions, t).Some? ==>
            var p := l.positions[LastMatch(l.positions, t).value];
            && p.IsClosedBy(t)
            && r.positions == RemoveFirst(l.positions, p)
            && |r.positions| == |l.positions| - 1
            && multiset(r.positions) == multiset(l.positions) - multiset{p}
            && r.trades == l.trades + [p.Close(t)])
  {
    if LastMatch(l.positions, t).Some? {
      RemoveFirstTakesOne(l.positions, l.positions[LastMatch(l.positions, t).value]);
    }
  }

  /** Adding a transaction keeps the ledger well formed, cash non-negative and the
      every transaction accounted for as an open position or a trade half. */
  lemma AfterTransactionKeepsLedger(l: Ledger, t: Transaction)
    requires Wf(l)
    ensures Wf(AfterTransaction(l, t))
    ensures CashNonNegative(l) ==> CashNonNegative(AfterTransaction(l, t))
    ensures Counted(l) ==> Counted(AfterTransaction(l, t))
  {
    if !Dropped(l, t) {
      AppliedTransaction(l, t);
      if Counted(l) {
        AppliedKeepsCounted(l, t);
      }
    }
  }

  /** An applied transaction is either a new open position or, together with the position it
      closes, the two halves of the new trade. */
  lemma AppliedKeepsCounted(l: Ledger, t: Transaction)
    requires !Dropped(l, t) && Counted(l)
    ensures Counted(AfterTransaction(l, t))
  {
    AppliedTransaction(l, t);
    var r := AfterTransaction(l, t);
    var ps := l.positions;
    var before := multiset(OpenTransactions(ps)) + TradeHalves(l.trades);
    assert multiset(r.transactions) == before + multiset{t};
    match LastMatch(ps, t)
    case None =>
      assert OpenTransactions(r.positions) == OpenTransactions(ps) + [t];
    case Some(i) =>
      var p := ps[i];
      assert r.positions == RemoveFirst(ps, p) && r.trades == l.trades + [p.Close(t)];
      RemovedPositionLeaves(ps, p);
      TradeHalvesAppend(l.trades, p.Close(t));
  }

  lemma OpenTransactionsAppend(a: seq<Position>, b: seq<Position>)
    ensures OpenTransactions(a + b) == OpenTransactions(a) + OpenTransactions(b)
  {
  }

  lemma OpenTransactionsSplice(a: seq<Position>, p: Position, b: seq<Position>)
    ensures multiset(OpenTransactions(a + ([p] + b)))
      == multiset(OpenTransactions(a + b)) + multiset{p.transaction}
  {
    OpenTransactionsAppend(a, [p] + b);
    OpenTransactionsAppend([p], b);
    OpenTransactionsAppend(a, b);
    assert OpenTransactions([p]) == [p.transaction];
  }

  /** Removing an open position takes exactly its transaction out of the open ones. */
  lemma RemovedPositionLeaves(ps: seq<Position>, p: Position)
    requires p in ps
    ensures multiset(OpenTransactions(ps))
      == multiset(OpenTransactions(RemoveFirst(ps, p))) + multiset{p.transaction}
  {
    RemoveFirstCutsAtIndex(ps, p);
    var j := IndexOf(ps, p);
    var a, b := ps[..j], ps[j + 1..];
    assert ps == a + ([p] + b);
    OpenTransactionsSplice(a, p, b);
  }

  lemma TradeHalvesAppend(trades: seq<Trade>, tr: Trade)
    ensures TradeHalves(trades + [tr]) == TradeHalves(trades) + multiset{tr.opening, tr.closing}
  {
    assert (trades + [tr])[..|trades|] == trades;
  }

  /** Open positions only ever come from transactions, so their tickers stay known. */
  lemma AfterTransactionKeepsKnown(l: Ledger, t: Transaction, frames: map<Ticker, Frame>)
    requires PositionsKnown(l.positions, frames) && t.order.ticker in frames
    ensures PositionsKnown(AfterTransaction(l, t).positions, frames)
  {
    var r := AfterTransaction(l, t);
    if !Dropped(l, t) && LastMatch(l.positions, t).Some? {
      var p := l.positions[LastMatch(l.positions, t).value];
      var rp := RemoveFirst(l.positions, p);
      RemoveFirstTakesOne(l.positions, p);
      assert r.positions == rp;
      forall k | 0 <= k < |rp|
        ensures rp[k].Ticker() in frames
      {
        assert rp[k] in l.positions;
      }
    }
  }

  // ---------------------------------------------------------------------------------------
  // Updating the ledger row of a date

  /** Carry cash forward: the next calendar date starts with this date's cash (NaN stays NaN);
      nothing is written after the last date. */
  function CarriedCash(l: Ledger, date: Date): (c: map<Date, real>)
    requires date in l.index
  {
    var i := IndexOf(l.index, date);
    if i < |l.index| - 1 then
      var next := l.index[i + 1];
      if date in l.cash then l.cash[next := l.cash[date]] else l.cash - {next}
    else l.cash
  }

  /** The running total and the stale-value cache while positions are marked to market. */
  datatype Mark = Mark(value: real, cache: map<Ticker, real>)

  /** Marks one position: at the close when its ticker has a record (and caches that value),
      otherwise at the ticker's cached value, or zero when nothing is cached. */
  function MarkPosition(pos: Position, p: OrderProcessor, date: Date, m: Mark): (r: Mark)
    requires pos.Ticker() in p.data.frames
  {
    var o := pos.transaction.order;
    if p.data.HasRecord(o, date) then
      var v := p.ValueAt(o, date);
      Mark(m.value + v, m.cache[o.ticker := v])
    else
      Mark(m.value + (if o.ticker in m.cache then m.cache[o.ticker] else 0.0), m.cache)
  }

  /** Marks the positions in list order, starting from a zero total and the given cache. */
  function MarkAll(ps: seq<Position>, p: OrderProcessor, date: Date, cache: map<Ticker, real>): (m: Mark)
    requires PositionsKnown(ps, p.data.frames)
  {
    if ps == [] then Mark(0.0, cache)
    else MarkPosition(ps[|ps| - 1], p, date, MarkAll(ps[..|ps| - 1], p, date, cache))
  }

  /** The ledger after `update_cash_and_open_value` on `date`. */
  function Revalued(l: Ledger, p: OrderProcessor, date: Date): (r: Ledger)
    requires date in l.index && PositionsKnown(l.positions, p.data.frames)
  {
    var m := MarkAll(l.positions, p, date, l.cache);
    l.(cash := CarriedCash(l, date), openPosition := l.openPosition[date := m.value], cache := m.cache)
  }

  /** Carrying cash forward sets the next date's cash to this date's and touches no other
      date; on the last date it changes nothing. */
  lemma CarryForward(l: Ledger, date: Date)
    requires Wf(l) && date in l.index
    ensures IndexOf(l.index, date) == |l.index| - 1 ==> CarriedCash(l, date) == l.cash
    ensures var i, c := IndexOf(l.index, date), CarriedCash(l, date);
      i < |l.index| - 1 ==>
        && (date in l.cash ==> l.index[i + 1] in c && c[l.index[i + 1]] == l.cash[date])
        && (date !in l.cash ==> l.index[i + 1] !in c)
        && (forall d :: d != l.index[i + 1] ==>
              (d in c <==> d in l.cash) && (d in c ==> c[d] == l.cash[d]))
  {
  }

  /** The ticker has a price row on `date`. */
  predicate HasPrice(p: OrderProcessor, t: Ticker, date: Date)
  {
    t in p.data.frames && date in p.data.frames[t]
  }

  /** `dict.get(t, 0.0)` on the stale-value cache. */
  function CachedOrZero(cache: map<Ticker, real>, t: Ticker): (v: real)
  {
    if t in cache then cache[t] else 0.0
  }

  /** Reference open value for any mix of priced and unpriced tickers: a position whose ticker
      has a price adds its signed close value; any other adds its ticker's entry in the cache
      as it stood before the pass (zero if none). */
  function MixedValue(ps: seq<Position>, p: OrderProcessor, date: Date, cache: map<Ticker, real>): (v: real)
    requires PositionsKnown(ps, p.data.frames)
  {
    if ps == [] then 0.0
    else
      var o := ps[|ps| - 1].transaction.order;
      MixedValue(ps[..|ps| - 1], p, date, cache)
        + (if p.data.HasRecord(o, date) then p.ValueAt(o, date) else CachedOrZero(cache, o.ticker))
  }

  /** The last position on ticker `t`, in list order. */
  function LastOn(ps: seq<Position>, t: Ticker): (r: Option<nat>)
    ensures r.Some? ==> r.value < |ps| && ps[r.value].Ticker() == t
    ensures r.Some? ==> forall j :: r.value < j < |ps| ==> ps[j].Ticker() != t
    ensures r.None? ==> forall j :: 0 <= j < |ps| ==> ps[j].Ticker() != t
  {
    if ps == [] then None
    else if ps[|ps| - 1].Ticker() == t then Some(|ps| - 1)
    else LastOn(ps[..|ps| - 1], t)
  }

  /** After a marking pass the cache holds, for every ticker with a price that date and an open
      position, the value of its LAST position in list order; every other entry is as before. */
  lemma {:induction false} MarkAllCache(ps: seq<Position>, p: OrderProcessor, date: Date, cache: map<Ticker, real>, t: Ticker)
    requires PositionsKnown(ps, p.data.frames)
    ensures var c := MarkAll(ps, p, date, cache).cache;
      && (LastOn(ps, t).Some? && HasPrice(p, t, date) ==>
            t in c && c[t] == p.ValueAt(ps[LastOn(ps, t).value].transaction.order, date))
      && (!(LastOn(ps, t).Some? && HasPrice(p, t, date)) ==>
            (t in c <==> t in cache) && (t in c ==> c[t] == cache[t]))
  {
    if ps != [] {
      var init := ps[..|ps| - 1];
      assert PositionsKnown(init, p.data.frames);
      MarkAllCache(init, p, date, cache, t);
    }
  }

  /** Whatever mix of priced and unpriced tickers a date has, the open value is the reference
      sum: an unpriced ticker's cache entry is never touched during the pass, so every position
      on it reads the entry the pass started with. */
  lemma {:induction false} MarkAllValue(ps: seq<Position>, p: OrderProcessor, date: Date, cache: map<Ticker, real>)
    requires PositionsKnown(ps, p.data.frames)
    ensures MarkAll(ps, p, date, cache).value == MixedValue(ps, p, date, cache)
  {
    if ps != [] {
      var init := ps[..|ps| - 1];
      assert PositionsKnown(init, p.data.frames);
      MarkAllValue(init, p, date, cache);
      var o := ps[|ps| - 1].transaction.order;
      if !p.data.HasRecord(o, date) {
        MarkAllCache(init, p, date, cache, o.ticker);
      }
    }
  }

  /** The cache keeps one value per ticker, that of the ticker's last position. With two long
      positions of `q1` and `q2` shares on one ticker, a priced date marks them at
      `close*(q1 + q2)`, while the next unpriced date marks each at the cached `close*q2`,
      `2*close*q2` in all. */
  lemma StaleMarkRepeatsLastPosition(p: OrderProcessor, a: Transaction, b: Transaction, d1: Date, d2: Date)
    requires a.order.ticker == b.order.ticker && a.order.ticker in p.data.frames
    requires a.order.IsBuy() && b.order.IsBuy()
    requires d1 in p.data.frames[a.order.ticker] && d2 !in p.data.frames[a.order.ticker]
    ensures var ps, close := [Position(a), Position(b)], p.data.frames[a.order.ticker][d1].close;
      && MarkAll(ps, p, d1, map[]).value == close * (a.order.quantity + b.order.quantity)
      && MarkAll(ps, p, d2, MarkAll(ps, p, d1, map[]).cache).value == 2.0 * close * b.order.quantity
  {
    var ps := [Position(a), Position(b)];
    var t, close := a.order.ticker, p.data.frames[a.order.ticker][d1].close;
    var va, vb := p.ValueAt(a.order, d1), p.ValueAt(b.order, d1);
    assert va == close * a.order.quantity && vb == close * b.order.quantity;
    assert ps[..1] == [Position(a)] && ps[..1][..0] == [];
    assert MarkAll(ps[..1], p, d1, map[]) == Mark(0.0 + va, map[t := va]);
    var priced := MarkAll(ps, p, d1, map[]);
    assert priced == Mark(0.0 + va + vb, map[t := va][t := vb]);
    assert priced.cache == map[t := vb];
    assert MarkAll(ps[..1], p, d2, priced.cache) == Mark(0.0 + vb, priced.cache);
    assert MarkAll(ps, p, d2, priced.cache).value == 0.0 + vb + vb;
  }

  /** Updating a date's row keeps the ledger well formed, keeps cash non-negative and leaves
      the transaction, position and trade lists as they were. */
  lemma RevaluedKeepsLedger(l: Ledger, p: OrderProcessor, date: Date)
    requires Wf(l) && date in l.index && PositionsKnown(l.positions, p.data.frames)
    ensures var r := Revalued(l, p, date);
      && Wf(r) && r.index == l.index
      && r.transactions == l.transactions && r.positions == l.positions && r.trades == l.trades
      && (CashNonNegative(l) ==> CashNonNegative(r))
      && (Counted(l) ==> Counted(r))
  {
    CarryForward(l, date);
  }

  // ---------------------------------------------------------------------------------------
  // The account object

  class Account {
    const index: seq<Date>
    var cash: map<Date, real>
    var openPosition: map<Date, real>
    var transactions: seq<Transaction>
    var positions: seq<Position>
    var trades: seq<Trade>
    var cache: map<Ticker, real>

    function State(): Ledger
      reads this
    {
      Ledger(index, cash, openPosition, transactions, positions, trades, cache)
    }

    ghost predicate Valid()
      reads this
    {
      Wf(State())
    }

    /** A new account over the calendar `timeIndex` (whose first row must exist and whose
        dates must be unique for `get_loc` to return a position). */
    constructor (initialCash: real, timeIndex: seq<Date>)
      requires |timeIndex| > 0 && Distinct(timeIndex)
      ensures Valid() && State() == Opened(initialCash, timeIndex)
    {
      index := timeIndex;
      cash := map[timeIndex[0] := initialCash];
      openPosition := map[timeIndex[0] := 0.0];
      positions, trades, transactions := [], [], [];
      cache := map[];
    }

    /** `get_cash`: None where the row is still NaN. */
    function GetCash(date: Date): (r: Option<real>)
      reads this
      requires date in index
      ensures r.Some? <==> date in cash
      ensures r.Some? ==> r.value == cash[date]
    {
      if date in cash then Some(cash[date]) else None
    }

    /** `get_value`: cash plus open-position value, NaN if either row is NaN. */
    function GetValue(date: Date): (r: Option<real>)
      reads this
      requires date in index
      ensures r.Some? <==> date in cash && date in openPosition
      ensures r.Some? ==> r.value - cash[date] == openPosition[date]
    {
      match GetCash(date)
      case Some(c) => if date in openPosition then Some(c + openPosition[date]) else None
      case None => None
    }

    /** `get_min_of_cash_and_value`. Python's min keeps its first argument unless the second
        compares smaller, so a NaN value yields the cash itself. */
    function GetMinOfCashAndValue(date: Date): (r: Option<real>)
      reads this
      requires date in index
      ensures r.Some? <==> date in cash
      ensures r.Some? ==> r.value <= cash[date]
      ensures r.Some? && date in openPosition ==>
        r.value <= cash[date] + openPosition[date]
        && (r.value == cash[date] || r.value == cash[date] + openPosition[date])
      ensures r.Some? && date !in openPosition ==> r.value == cash[date]
    {
      match GetCash(date)
      case None => None
      case Some(c) =>
        match GetValue(date)
        case Some(v) => if v < c then Some(v) else Some(c)
        case None => Some(c)
    }

    /** The scan of `add_transaction` over the open positions: it ends on the last one that
        `t` closes. */
    method LastClosedBy(t: Transaction) returns (toBeClosed: Option<nat>)
      ensures toBeClosed == LastMatch(positions, t)
    {
      toBeClosed := None;
      var i := 0;
      while i < |positions|
        invariant 0 <= i <= |positions|
        invariant toBeClosed == LastMatch(positions[..i], t)
      {
        assert positions[..i + 1][..i] == positions[..i];
        if positions[i].IsClosedBy(t) {
          toBeClosed := Some(i);
        }
        i := i + 1;
      }
      assert positions[..i] == positions;
    }

    /** `add_transaction`: a transaction the cash on its date cannot pay for is dropped;
        otherwise it is recorded and either closes the last matching position into a trade or
        opens a new position. */
    method AddTransaction(t: Transaction)
      requires Valid() && t.executionDate in index
      modifies this
      ensures Valid() && State() == AfterTransaction(old(State()), t)
    {
      var d := t.executionDate;
      if d in cash && cash[d] + t.cost < 0.0 {
        // dropped: not enough funds
        return;
      }
      if d in cash {
        cash := cash[d := cash[d] + t.cost];
      }
      transactions := transactions + [t];

      var toBeClosed := LastClosedBy(t);
      match toBeClosed
      case Some(k) =>
        var position := positions[k];
        positions := RemoveFirst(positions, position);
        trades := trades + [position.Close(t)];
      case None =>
        positions := positions + [Position(t)];
      assert State() == AfterTransaction(old(State()), t);
      AfterTransactionKeepsLedger(old(State()), t);
    }

    method UpdateCashAndOpenValue(p: OrderProcessor, date: Date)
      requires Valid() && date in index && PositionsKnown(positions, p.data.frames)
      modifies this
      ensures Valid() && State() == Revalued(old(State()), p, date)
    {
      UpdateCash(date);
      UpdateOpenPosition(p, date);
      RevaluedKeepsLedger(old(State()), p, date);
    }

    method UpdateCash(date: Date)
      requires Valid() && date in index
      modifies this
      ensures State() == old(State()).(cash := CarriedCash(old(State()), date))
    {
      var i := IndexOf(index, date);
      if i < |index| - 1 {
        var next := index[i + 1];
        if date in cash {
          cash := cash[next := cash[date]];
        } else {
          cash := cash - {next};
        }
      }
    }

    method UpdateOpenPosition(p: OrderProcessor, date: Date)
      requires PositionsKnown(positions, p.data.frames)
      modifies this
      ensures var m := MarkAll(old(positions), p, date, old(cache));
        State() == old(State()).(openPosition := old(openPosition)[date := m.value], cache := m.cache)
    {
      var valueAtDate := 0.0;
      var i := 0;
      while i < |positions|
        invariant 0 <= i <= |positions|
        invariant positions == old(positions) && cash == old(cash) && openPosition == old(openPosition)
        invariant transactions == old(transactions) && trades == old(trades)
        invariant Mark(valueAtDate, cache) == MarkAll(positions[..i], p, date, old(cache))
      {
        assert positions[..i + 1][..i] == positions[..i];
        var o := positions[i].transaction.order;
        var value := 0.0;
        if p.data.HasRecord(o, date) {
          value := p.ValueAt(o, date);
          cache := cache[o.ticker := value];
        } else {
          value := if o.ticker in cache then cache[o.ticker] else 0.0;
        }
        valueAtDate := valueAtDate + value;
        i := i + 1;
      }
      assert positions[..i] == positions;
      openPosition := openPosition[date := valueAtDate];
    }
  }
}

=== FILE: brokers.dfy ===
/** The broker (ekeko/backtrader/broker.py, Broker and BrokerBuilder): a FIFO queue of orders
    executed against the account one calendar date at a time. */
module Brokers {
  import opened Lists
  import opened MarketData
  import opened Orders
  import opened Execution
  import opened Accounts

  predicate OrdersKnown(os: seq<Order>, frames: map<Ticker, Frame>)
  {
    forall i :: 0 <= i < |os| ==> os[i].ticker in frames
  }

  lemma OrdersKnownAppend(a: seq<Order>, b: seq<Order>, frames: map<Ticker, Frame>)
    requires OrdersKnown(a, frames) && OrdersKnown(b, frames)
    ensures OrdersKnown(a + b, frames)
  {
    forall i | 0 <= i < |a + b|
      ensures (a + b)[i].ticker in frames
    {
      if i >= |a| {
        assert (a + b)[i] == b[i - |a|];
      }
    }
  }

  /** The queued orders that can execute on `date`, in queue order. */
  function Executable(q: seq<Order>, p: OrderProcessor, date: Date): (r: seq<Order>)
    requires OrdersKnown(q, p.data.frames)
    ensures OrdersKnown(r, p.data.frames)
    ensures forall i :: 0 <= i < |r| ==> p.CanExecuteOrder(r[i], date)
  {
    if q == [] then []
    else (if p.CanExecuteOrder(q[0], date) then [q[0]] else []) + Executable(q[1..], p, date)
  }

  /** The queued orders that cannot execute on `date`, in queue order. */
  function Waiting(q: seq<Order>, p: OrderProcessor, date: Date): (r: seq<Order>)
    requires OrdersKnown(q, p.data.frames)
    ensures OrdersKnown(r, p.data.frames)
    ensures forall i :: 0 <= i < |r| ==> !p.CanExecuteOrder(r[i], date)
  {
    if q == [] then []
    else (if p.CanExecuteOrder(q[0], date) then [] else [q[0]]) + Waiting(q[1..], p, date)
  }

  /** Every queued order is either picked for execution or left waiting, never both, never
      neither. */
  lemma {:induction false} QueuePartition(q: seq<Order>, p: OrderProcessor, date: Date)
    requires OrdersKnown(q, p.data.frames)
    ensures multiset(q) == multiset(Executable(q, p, date)) + multiset(Waiting(q, p, date))
  {
    if q != [] {
      QueuePartition(q[1..], p, date);
      assert q == [q[0]] + q[1..];
    }
  }

  lemma {:induction false} ExecutableAppend(a: seq<Order>, b: seq<Order>, p: OrderProcessor, date: Date)
    requires OrdersKnown(a, p.data.frames) && OrdersKnown(b, p.data.frames)
    ensures OrdersKnown(a + b, p.data.frames)
    ensures Executable(a + b, p, date) == Executable(a, p, date) + Executable(b, p, date)
  {
    if a != [] {
      assert (a + b)[1..] == a[1..] + b;
      ExecutableAppend(a[1..], b, p, date);
    } else {
      assert a + b == b;
    }
  }

  /** Orders left waiting keep their queue order: splitting the queue splits the waiting
      orders the same way. */
  lemma {:induction false} WaitingAppend(a: seq<Order>, b: seq<Order>, p: OrderProcessor, date: Date)
    requires OrdersKnown(a, p.data.frames) && OrdersKnown(b, p.data.frames)
    ensures OrdersKnown(a + b, p.data.frames)
    ensures Waiting(a + b, p, date) == Waiting(a, p, date) + Waiting(b, p, date)
  {
    if a != [] {
      assert (a + b)[1..] == a[1..] + b;
      WaitingAppend(a[1..], b, p, date);
    } else {
      assert a + b == b;
    }
  }

  /** The queue with its first `n` executable orders taken out. */
  function Dequeued(q: seq<Order>, p: OrderProcessor, date: Date, n: nat): (r: seq<Order>)
    requires OrdersKnown(q, p.data.frames)
    ensures OrdersKnown(r, p.data.frames)
  {
    if n == 0 then q
    else if q == [] then []
    else if p.CanExecuteOrder(q[0], date) then Dequeued(q[1..], p, date, n - 1)
    else [q[0]] + Dequeued(q[1..], p, date, n)
  }

  /** Removing (by value, first occurrence) the next executable order takes out exactly that
      order: an earlier waiting order can never equal it, since executability depends on the
      order's value only. */
  lemma {:induction false} DequeueNext(q: seq<Order>, p: OrderProcessor, date: Date, n: nat)
    requires OrdersKnown(q, p.data.frames) && n < |Executable(q, p, date)|
    ensures RemoveFirst(Dequeued(q, p, date, n), Executable(q, p, date)[n]) == Dequeued(q, p, date, n + 1)
  {
    assert q != [];
    if p.CanExecuteOrder(q[0], date) {
      if n > 0 {
        DequeueNext(q[1..], p, date, n - 1);
      }
      DequeueAfterExecutable(q, p, date, n);
    } else {
      DequeueNext(q[1..], p, date, n);
      DequeueAfterWaiting(q, p, date, n);
    }
  }

  /** The step of DequeueNext when the queue's head can execute. */
  lemma DequeueAfterExecutable(q: seq<Order>, p: OrderProcessor, date: Date, n: nat)
    requires OrdersKnown(q, p.data.frames) && n < |Executable(q, p, date)|
    requires q != [] && p.CanExecuteOrder(q[0], date)
    requires n > 0 ==>
      RemoveFirst(Dequeued(q[1..], p, date, n - 1), Executable(q[1..], p, date)[n - 1])
        == Dequeued(q[1..], p, date, n)
    ensures RemoveFirst(Dequeued(q, p, date, n), Executable(q, p, date)[n]) == Dequeued(q, p, date, n + 1)
  {
    assert Executable(q, p, date) == [q[0]] + Executable(q[1..], p, date);
    if n == 0 {
      assert RemoveFirst(q, q[0]) == q[1..];
    }
  }

  /** The step of DequeueNext when the queue's head must wait: the order taken out cannot be
      the head, which differs from it in executability. */
  lemma DequeueAfterWaiting(q: seq<Order>, p: OrderProcessor, date: Date, n: nat)
    requires OrdersKnown(q, p.data.frames) && n < |Executable(q, p, date)|
    requires q != [] && !p.CanExecuteOrder(q[0], date)
    requires RemoveFirst(Dequeued(q[1..], p, date, n), Executable(q[1..], p, date)[n])
               == Dequeued(q[1..], p, date, n + 1)
    ensures RemoveFirst(Dequeued(q, p, date, n), Executable(q, p, date)[n]) == Dequeued(q, p, date, n + 1)
  {
    var rest := q[1..];
    assert Executable(q, p, date) == Executable(rest, p, date);
    var e := Executable(rest, p, date)[n];
    assert p.CanExecuteOrder(e, date);
    assert e != q[0];
    var before := Dequeued(rest, p, date, n);
    assert Dequeued(q, p, date, n) == [q[0]] + before by {
      if n == 0 { assert q == [q[0]] + rest; }
    }
    assert ([q[0]] + before)[0] == q[0] && ([q[0]] + before)[1..] == before;
  }

  /** Once every executable order is taken out, exactly the waiting orders remain, in order. */
  lemma {:induction false} DequeueAll(q: seq<Order>, p: OrderProcessor, date: Date)
    requires OrdersKnown(q, p.data.frames)
    ensures Dequeued(q, p, date, |Executable(q, p, date)|) == Waiting(q, p, date)
  {
    if q != [] {
      DequeueAll(q[1..], p, date);
    }
  }

  predicate AllExecutable(os: seq<Order>, p: OrderProcessor, date: Date)
  {
    forall i :: 0 <= i < |os| ==> os[i].ticker in p.data.frames && p.CanExecuteOrder(os[i], date)
  }

  /** The ledger after executing `os` one by one on `date`. */
  function ExecuteAll(l: Ledger, p: OrderProcessor, os: seq<Order>, date: Date): (r: Ledger)
    requires AllExecutable(os, p, date)
  {
    if os == [] then l
    else AfterTransaction(ExecuteAll(l, p, os[..|os| - 1], date), p.ProcessOrder(os[|os| - 1], date))
  }

  /** Executing one more order of the batch is one more transaction. */
  lemma ExecuteAllNext(l: Ledger, p: OrderProcessor, os: seq<Order>, j: nat, date: Date)
    requires AllExecutable(os, p, date) && j < |os|
    ensures AllExecutable(os[..j], p, date) && AllExecutable(os[..j + 1], p, date)
    ensures ExecuteAll(l, p, os[..j + 1], date) == AfterTransaction(ExecuteAll(l, p, os[..j], date), p.ProcessOrder(os[j], date))
  {
    var ds := os[..j + 1];
    assert ds[..|ds| - 1] == os[..j];
    assert ds[|ds| - 1] == os[j];
  }

  /** Executing a batch keeps the ledger well formed and indexed by the same calendar, keeps
      cash non-negative and every transaction accounted for as an open position or a trade half. */
  lemma {:induction false} ExecuteAllKeepsLedger(l: Ledger, p: OrderProcessor, os: seq<Order>, date: Date)
    requires Wf(l) && PositionsKnown(l.positions, p.data.frames) && AllExecutable(os, p, date)
    ensures var r := ExecuteAll(l, p, os, date);
      && Wf(r) && r.index == l.index && PositionsKnown(r.positions, p.data.frames)
      && (CashNonNegative(l) ==> CashNonNegative(r))
      && (Counted(l) ==> Counted(r))
  {
    if os != [] {
      var before := ExecuteAll(l, p, os[..|os| - 1], date);
      ExecuteAllKeepsLedger(l, p, os[..|os| - 1], date);
      var t := p.ProcessOrder(os[|os| - 1], date);
      assert ExecuteAll(l, p, os, date) == AfterTransaction(before, t);
      AfterTransactionKeepsLedger(before, t);
      AfterTransactionKeepsKnown(before, t, p.data.frames);
    }
  }

  /** What the broker holds between two dates. */
  datatype BrokerState = BrokerState(ledger: Ledger, queue: seq<Order>)

  ghost predicate BrokerOk(s: BrokerState, frames: map<Ticker, Frame>)
  {
    Wf(s.ledger) && OrdersKnown(s.queue, frames) && PositionsKnown(s.ledger.positions, frames)
  }

  /** The broker after `update(new_orders, date)`: the orders that can execute on `date` are
      picked first and executed in queue order, then the date's ledger row is updated, and
      only then are the new orders appended behind the ones still waiting. */
  function Updated(s: BrokerState, p: OrderProcessor, newOrders: seq<Order>, date: Date): (r: BrokerState)
    requires BrokerOk(s, p.data.frames) && date in s.ledger.index
  {
    var executable := Executable(s.queue, p, date);
    var executed := ExecuteAll(s.ledger, p, executable, date);
    ExecuteAllKeepsLedger(s.ledger, p, executable, date);
    BrokerState(Revalued(executed, p, date), Waiting(s.queue, p, date) + newOrders)
  }

  /** An update keeps the broker well formed, cash non-negative and every transaction accounted for; it
      takes every executable order out of the queue whether its transaction was applied or
      dropped. */
  lemma UpdatedKeepsBroker(s: BrokerState, p: OrderProcessor, newOrders: seq<Order>, date: Date)
    requires BrokerOk(s, p.data.frames) && date in s.ledger.index && OrdersKnown(newOrders, p.data.frames)
    ensures var r := Updated(s, p, newOrders, date);
      && BrokerOk(r, p.data.frames) && r.ledger.index == s.ledger.index
      && (CashNonNegative(s.ledger) ==> CashNonNegative(r.ledger))
      && (Counted(s.ledger) ==> Counted(r.ledger))
      && (forall o :: o in s.queue && p.CanExecuteOrder(o, date) ==> o !in r.queue[..|r.queue| - |newOrders|])
  {
    var executable := Executable(s.queue, p, date);
    var executed := ExecuteAll(s.ledger, p, executable, date);
    ExecuteAllKeepsLedger(s.ledger, p, executable, date);
    RevaluedKeepsLedger(executed, p, date);
    var r := Updated(s, p, newOrders, date);
    assert r.queue[..|r.queue| - |newOrders|] == Waiting(s.queue, p, date);
  }

  /** Orders submitted on a date are never executed on that date: the ledger after the update
      does not depend on them. */
  lemma NoSameDayExecution(s: BrokerState, p: OrderProcessor, a: seq<Order>, b: seq<Order>, date: Date)
    requires BrokerOk(s, p.data.frames) && date in s.ledger.index
    ensures Updated(s, p, a, date).ledger == Updated(s, p, b, date).ledger
  {
  }

  class Broker {
    const account: Account
    const commission: real
    const processor: OrderProcessor
    var orderQueue: seq<Order>

    ghost predicate Valid()
      reads this, account
    {
      && account.Valid()
      && processor.commission == commission
      && BrokerOk(State(), processor.data.frames)
    }

    function State(): BrokerState
      reads this, account
    {
      BrokerState(account.State(), orderQueue)
    }

    /** A broker over `account`; without a slippage model it fills at the close. */
    constructor (account: Account, commission: real, stockDfs: map<Ticker, Frame>, slippage: Option<Slippage>)
      requires account.Valid() && PositionsKnown(account.positions, stockDfs)
      ensures Valid() && this.account == account && this.commission == commission && orderQueue == []
      ensures processor.commission == commission && processor.data.frames == stockDfs
      ensures slippage.Some? ==> processor.data.slippage == slippage.value
      ensures slippage.None? ==> processor.data.slippage == SlippageOnClose
    {
      this.account := account;
      this.commission := commission;
      orderQueue := [];
      var s := if slippage.None? then SlippageOnClose else slippage.value;
      processor := OrderProcessor(StockData(stockDfs, s), commission);
    }

    /** The first phase of processing the queue: the whole batch of orders that can execute
        on `date` is picked, in queue order, before any of them touches the account. */
    method SelectExecutable(date: Date) returns (executable: seq<Order>)
      requires Valid()
      ensures executable == Executable(orderQueue, processor, date)
    {
      executable := [];
      var i := 0;
      while i < |orderQueue|
        invariant 0 <= i <= |orderQueue|
        invariant executable == Executable(orderQueue[..i], processor, date)
      {
        assert orderQueue[..i + 1] == orderQueue[..i] + [orderQueue[i]];
        ExecutableAppend(orderQueue[..i], [orderQueue[i]], processor, date);
        if processor.CanExecuteOrder(orderQueue[i], date) {
          executable := executable + [orderQueue[i]];
        }
        i := i + 1;
      }
      assert orderQueue[..i] == orderQueue;
    }

    /** Executes one picked order: its transaction goes to the account and the order leaves
        the queue (Python's `list.remove`, by value). */
    method Fill(order: Order, date: Date)
      requires account.Valid() && PositionsKnown(account.positions, processor.data.frames)
      requires date in account.index
      requires order.ticker in processor.data.frames && processor.CanExecuteOrder(order, date)
      modifies this, account
      ensures account.Valid() && PositionsKnown(account.positions, processor.data.frames)
      ensures account.State() == AfterTransaction(old(account.State()), processor.ProcessOrder(order, date))
      ensures orderQueue == RemoveFirst(old(orderQueue), order)
    {
      var t := processor.ProcessOrder(order, date);
      AfterTransactionKeepsKnown(account.State(), t, processor.data.frames);
      account.AddTransaction(t);
      orderQueue := RemoveFirst(orderQueue, order);
    }

    /** `__process_queue`: the executable batch is picked first, then each of its orders
        is executed and removed from the queue, in queue order. */
    method ProcessQueue(date: Date)
      requires Valid() && date in account.index
      modifies this, account
      ensures Valid()
      ensures orderQueue == Waiting(old(orderQueue), processor, date)
      ensures account.State()
        == ExecuteAll(old(account.State()), processor, Executable(old(orderQueue), processor, date), date)
    {
      var executable := SelectExecutable(date);
      ghost var q0 := orderQueue;
      ghost var l0 := account.State();
      var j := 0;
      while j < |executable|
        invariant 0 <= j <= |executable|
        invariant account.Valid() && PositionsKnown(account.positions, processor.data.frames)
        invariant account.State() == ExecuteAll(l0, processor, executable[..j], date)
        invariant orderQueue == Dequeued(q0, processor, date, j)
      {
        Fill(executable[j], date);
        DequeueNext(q0, processor, date, j);
        ExecuteAllNext(l0, processor, executable, j, date);
        j := j + 1;
      }
      DequeueAll(q0, processor, date);
      assert executable[..j] == executable;
    }

    method UpdateAccount(date: Date)
      requires Valid() && date in account.index
      modifies account
      ensures Valid() && account.State() == Revalued(old(account.State()), processor, date)
    {
      account.UpdateCashAndOpenValue(processor, date);
    }

    method Update(newOrders: seq<Order>, date: Date)
      requires Valid() && date in account.index && OrdersKnown(newOrders, processor.data.frames)
      modifies this, account
      ensures Valid() && State() == Updated(old(State()), processor, newOrders, date)
    {
      ProcessQueue(date);
      UpdateAccount(date);
      orderQueue := orderQueue + newOrders;
    }

    /** The queue-append step of `update`, on its own. */
    method AddOrders(orders: seq<Order>)
      requires Valid() && OrdersKnown(orders, processor.data.frames)
      modifies this
      ensures Valid() && State() == old(State()).(queue := old(orderQueue) + orders)
    {
      orderQueue := orderQueue + orders;
    }
  }

  class BrokerBuilder {
    const initialCash: real
    const commission: real
    const stockDfs: StockDfs
    var slippage: Option<Slippage>

    constructor (initialCash: real, commission: real, stockDfs: StockDfs, slippage: Option<Slippage>)
      ensures this.initialCash == initialCash && this.commission == commission
      ensures this.stockDfs == stockDfs && this.slippage == slippage
    {
      this.initialCash := initialCash;
      this.commission := commission;
      this.stockDfs := stockDfs;
      this.slippage := slippage;
    }

    /** A broker over a new account on `timeIndex`; a missing slippage model is replaced, in
        the builder too, by filling at the close. */
    method Build(timeIndex: seq<Date>) returns (b: Broker)
      requires |timeIndex| > 0 && Distinct(timeIndex)
      modifies this
      ensures old(slippage).Some? ==> slippage == old(slippage)
      ensures old(slippage).None? ==> slippage == Some(SlippageOnClose)
      ensures fresh(b) && fresh(b.account) && b.Valid()
      ensures b.State() == BrokerState(Opened(initialCash, timeIndex), [])
      ensures b.commission == commission && b.processor.commission == commission
      ensures b.processor.data.frames == stockDfs.frames && b.processor.data.slippage == slippage.value
    {
      if slippage.None? {
        slippage := Some(SlippageOnClose);
      }
      var account := new Account(initialCash, timeIndex);
      b := new Broker(account, commission, stockDfs.frames, slippage);
    }
  }
}

=== FILE: engines.dfy ===
/** The engine (ekeko/backtrader/engine.py): the calendar, the per-ticker signals and the
    date-by-date run that drives the broker. The strategy, the trader and the near-expiration
    close-out are collaborators given as functions. */
module Engines {
  import opened Lists
  import opened MarketData
  import opened Orders
  import opened Positions
  import opened Accounts
  import opened Brokers

  /** The strategy: a ticker's price frame to its signal rows, keyed by date. */
  type Strategy<S> = Frame -> map<Date, S>

  /** The trader: (account, date, ticker, signal row, price row, open positions of the ticker)
      to the orders it submits. It sees a snapshot of the account and cannot change it. */
  type Trader<!S> = (Ledger, Date, Ticker, S, Row, seq<Position>) -> seq<Order>

  /** The broker's near-expiration close-out, called once per date after the orders are
      queued; its rule is not part of this model, only that it queues orders. */
  type NearExpirationHook = (Ledger, Date) -> seq<Order>

  /** A trader orders only tickers that have a price frame whenever it is called the way
      `__get_orders` calls it: on a ticker that has a frame, shown only that ticker's open
      positions. What it does on other inputs is never observed. */
  ghost predicate TraderSound<S(!new)>(trader: Trader<S>, frames: map<Ticker, Frame>)
  {
    forall v, d, t, s, r, ps ::
      t in frames && AllOn(ps, t) ==> OrdersKnown(trader(v, d, t, s, r, ps), frames)
  }

  /** Every position is on ticker `t`. */
  predicate AllOn(ps: seq<Position>, t: Ticker)
  {
    forall i :: 0 <= i < |ps| ==> ps[i].Ticker() == t
  }

  /** The close-out orders only tickers that have a price frame whenever every open position
      of the account it is shown has one. */
  ghost predicate HookSound(hook: NearExpirationHook, frames: map<Ticker, Frame>)
  {
    forall v: Ledger, d :: PositionsKnown(v.positions, frames) ==> OrdersKnown(hook(v, d), frames)
  }

  /** The `buy` and `sell` columns of the signal frame of tests/test_engine_with_missing_dates.py. */
  datatype BuySell = BuySell(buy: bool, sell: bool)

  /** The closing order of every given position, in their order. */
  function ClosingOrders(ps: seq<Position>, date: Date): (orders: seq<Order>)
    ensures |orders| == |ps|
    ensures forall i :: 0 <= i < |ps| ==>
      orders[i].ticker == ps[i].Ticker() && orders[i].action == ps[i].transaction.order.action.Opposite()
  {
    seq(|ps|, i requires 0 <= i < |ps| => ps[i].GetClosingOrder(date))
  }

  /** The trader of tests/test_engine_with_missing_dates.py: one share of its ticker bought at
      market on a buy signal when it holds none of it, and every open position closed on a
      sell signal. */
  function BuyOneSellAll(v: Ledger, d: Date, t: Ticker, s: BuySell, r: Row, ps: seq<Position>): (orders: seq<Order>)
  {
    (if s.buy && |ps| == 0 then [Order(Stock, t, 1.0, Market, Buy, d)] else [])
      + (if s.sell then ClosingOrders(ps, d) else [])
  }

  /** The test's trader meets `TraderSound` for any frames: it orders its own ticker and the
      tickers of the positions it is shown, which are that same ticker. */
  lemma BuyOneSellAllSound(frames: map<Ticker, Frame>)
    ensures TraderSound(BuyOneSellAll, frames)
  {
    forall v, d, t, s, r, ps | t in frames && AllOn(ps, t)
      ensures OrdersKnown(BuyOneSellAll(v, d, t, s, r, ps), frames)
    {
      var buy: seq<Order> := if s.buy && |ps| == 0 then [Order(Stock, t, 1.0, Market, Buy, d)] else [];
      var sell: seq<Order> := if s.sell then ClosingOrders(ps, d) else [];
      assert OrdersKnown(buy, frames);
      assert OrdersKnown(sell, frames);
      OrdersKnownAppend(buy, sell, frames);
    }
  }

  // ---------------------------------------------------------------------------------------
  // The calendar

  /** The dates of the frames of `ts`, unioned in list order. */
  function DatesOf(frames: map<Ticker, Frame>, ts: seq<Ticker>): (dates: set<Date>)
    requires forall i :: 0 <= i < |ts| ==> ts[i] in frames
  {
    if ts == [] then {}
    else DatesOf(frames, ts[..|ts| - 1]) + frames[ts[|ts| - 1]].Keys
  }

  lemma {:induction false} DatesOfMembers(frames: map<Ticker, Frame>, ts: seq<Ticker>, d: Date)
    requires forall i :: 0 <= i < |ts| ==> ts[i] in frames
    ensures d in DatesOf(frames, ts) <==> exists i :: 0 <= i < |ts| && d in frames[ts[i]]
  {
    if ts != [] {
      DatesOfMembers(frames, ts[..|ts| - 1], d);
      if d in DatesOf(frames, ts[..|ts| - 1]) {
        var i :| 0 <= i < |ts| - 1 && d in frames[ts[..|ts| - 1][i]];
        assert d in frames[ts[i]];
      }
    }
  }

  lemma PickDateExists(s: set<Date>)
    requires s != {}
    ensures exists y :: y in s
  {
    if forall y :: y !in s {
      assert false;
    }
  }

  ghost function PickDate(s: set<Date>): (y: Date)
    requires s != {}
    ensures y in s
  {
    PickDateExists(s);
    var y :| y in s; y
  }

  /** Every non-empty finite set of dates has a least element. */
  lemma {:induction false} MinimumExists(s: set<Date>)
    requires s != {}
    ensures exists m :: m in s && forall x :: x in s ==> m <= x
  {
    var y := PickDate(s);
    if s != {y} {
      var rest := s - {y};
      MinimumExists(rest);
      var m :| m in rest && forall x :: x in rest ==> m <= x;
      var least := if y < m then y else m;
      forall x | x in s
        ensures least <= x
      {
        if x != y {
          assert x in rest;
        }
      }
      assert least in s;
    } else {
      assert forall x :: x in s ==> x == y;
    }
  }

  /** The dates of a set listed in increasing order, as a DatetimeIndex keeps them. */
  method SortedDates(dates: set<Date>) returns (index: seq<Date>)
    ensures StrictlyIncreasing(index)
    ensures forall d :: d in index <==> d in dates
  {
    index := [];
    var rest := dates;
    while rest != {}
      invariant StrictlyIncreasing(index)
      invariant forall d :: d in dates <==> d in rest || d in index
      invariant forall x, y :: x in index && y in rest ==> x < y
      decreases |rest|
    {
      MinimumExists(rest);
      var m :| m in rest && forall x :: x in rest ==> m <= x;
      var next := index + [m];
      forall i, j | 0 <= i < j < |next|
        ensures next[i] < next[j]
      {
        if j == |index| {
          assert next[i] == index[i] && index[i] in index;
        }
      }
      index := next;
      rest := rest - {m};
    }
  }

  /** `__get_timeindex_union`: the sorted, duplicate-free union of every ticker's dates. */
  method TimeIndexUnion(dfs: StockDfs) returns (index: seq<Date>)
    requires dfs.Valid()
    ensures StrictlyIncreasing(index)
    ensures forall d :: d in index <==> exists t :: t in dfs.frames && d in dfs.frames[t]
  {
    var dates: set<Date> := {};
    var i := 0;
    while i < |dfs.tickers|
      invariant 0 <= i <= |dfs.tickers|
      invariant dates == DatesOf(dfs.frames, dfs.tickers[..i])
    {
      assert dfs.tickers[..i + 1][..i] == dfs.tickers[..i];
      dates := dates + dfs.frames[dfs.tickers[i]].Keys;
      i := i + 1;
    }
    assert dfs.tickers[..i] == dfs.tickers;
    index := SortedDates(dates);

    forall d
      ensures d in index <==> exists t :: t in dfs.frames && d in dfs.frames[t]
    {
      DatesOfMembers(dfs.frames, dfs.tickers, d);
      if d in index {
        var k :| 0 <= k < |dfs.tickers| && d in dfs.frames[dfs.tickers[k]];
      }
      if exists t :: t in dfs.frames && d in dfs.frames[t] {
        var t :| t in dfs.frames && d in dfs.frames[t];
        var k :| 0 <= k < |dfs.tickers| && dfs.tickers[k] == t;
      }
    }
  }

  /** `__init_signal_dfs`: the strategy evaluated once on each ticker's frame. */
  method InitSignalDfs<S>(dfs: StockDfs, strategy: Strategy<S>) returns (signals: map<Ticker, map<Date, S>>)
    requires dfs.Valid()
    ensures signals.Keys == dfs.frames.Keys
    ensures forall t :: t in signals ==> signals[t] == strategy(dfs.frames[t])
  {
    signals := map[];
    var i := 0;
    while i < |dfs.tickers|
      invariant 0 <= i <= |dfs.tickers|
      invariant forall t :: t in signals <==> t in dfs.tickers[..i]
      invariant forall t :: t in signals ==> t in dfs.frames && signals[t] == strategy(dfs.frames[t])
    {
      var t := dfs.tickers[i];
      signals := signals[t := strategy(dfs.frames[t])];
      assert dfs.tickers[..i + 1] == dfs.tickers[..i] + [t];
      i := i + 1;
    }
    assert dfs.tickers[..i] == dfs.tickers;
  }

  /** The account's open positions on `ticker`, in account order. */
  function OpenPositionsFor(ps: seq<Position>, ticker: Ticker): (r: seq<Position>)
    ensures forall p :: p in r <==> p in ps && p.Ticker() == ticker
    ensures |r| <= |ps|
  {
    if ps == [] then []
    else (if ps[0].Ticker() == ticker then [ps[0]] else []) + OpenPositionsFor(ps[1..], ticker)
  }

  /** A single position is kept exactly when it is on the ticker. */
  lemma OpenPositionsForOne(x: Position, ticker: Ticker)
    ensures OpenPositionsFor([x], ticker) == if x.Ticker() == ticker then [x] else []
  {
    assert [x][1..] == [];
  }

  /** The comprehension keeps account order and duplicates: filtering a concatenation is
      concatenating the filtered parts. */
  lemma {:induction false} OpenPositionsForAppend(a: seq<Position>, b: seq<Position>, ticker: Ticker)
    ensures OpenPositionsFor(a + b, ticker) == OpenPositionsFor(a, ticker) + OpenPositionsFor(b, ticker)
  {
    if a == [] {
      assert a + b == b;
    } else {
      var head := if a[0].Ticker() == ticker then [a[0]] else [];
      assert (a + b)[0] == a[0] && (a + b)[1..] == a[1..] + b;
      OpenPositionsForAppend(a[1..], b, ticker);
      calc {
        OpenPositionsFor(a + b, ticker);
        head + OpenPositionsFor(a[1..] + b, ticker);
        head + (OpenPositionsFor(a[1..], ticker) + OpenPositionsFor(b, ticker));
        (head + OpenPositionsFor(a[1..], ticker)) + OpenPositionsFor(b, ticker);
        OpenPositionsFor(a, ticker) + OpenPositionsFor(b, ticker);
      }
    }
  }

  // ---------------------------------------------------------------------------------------
  // The engine

  class Engine<S(!new)> {
    const trader: Trader<S>
    const stockDfs: StockDfs
    const timeIndex: seq<Date>
    const broker: Broker
    const signalDfs: map<Ticker, map<Date, S>>
    const nearExpiration: NearExpirationHook

    /** Every ticker has a signal frame, and signals are dated only on the ticker's price
        dates (the strategy only keeps or drops rows). */
    ghost predicate SignalsAligned()
    {
      && signalDfs.Keys == stockDfs.frames.Keys
      && (forall t :: t in signalDfs ==> signalDfs[t].Keys <= stockDfs.frames[t].Keys)
    }

    /** How the engine's parts fit together; none of it ever changes. */
    ghost predicate Wired()
    {
      && stockDfs.Valid()
      && StrictlyIncreasing(timeIndex)
      && broker.processor.data.frames == stockDfs.frames
      && SignalsAligned()
      && TraderSound(trader, stockDfs.frames)
      && HookSound(nearExpiration, stockDfs.frames)
    }

    lemma TickersHaveSignals()
      requires stockDfs.Valid() && SignalsAligned()
      ensures forall i :: 0 <= i < |stockDfs.tickers| ==> stockDfs.tickers[i] in signalDfs
    {
      forall i | 0 <= i < |stockDfs.tickers|
        ensures stockDfs.tickers[i] in signalDfs
      {
        assert stockDfs.tickers[i] in stockDfs.tickers;
      }
    }

    ghost predicate Valid()
      reads broker, broker.account
    {
      Wired() && broker.Valid() && broker.account.index == timeIndex
    }

    constructor (trader: Trader<S>, strategy: Strategy<S>, builder: BrokerBuilder, nearExpiration: NearExpirationHook)
      requires builder.stockDfs.Valid()
      requires exists t, d :: t in builder.stockDfs.frames && d in builder.stockDfs.frames[t]
      requires forall f :: strategy(f).Keys <= f.Keys
      requires TraderSound(trader, builder.stockDfs.frames)
      requires HookSound(nearExpiration, builder.stockDfs.frames)
      modifies builder
      ensures Valid() && fresh(broker) && fresh(broker.account)
      ensures stockDfs == builder.stockDfs && this.trader == trader && this.nearExpiration == nearExpiration
      ensures forall d :: d in timeIndex <==> exists t :: t in stockDfs.frames && d in stockDfs.frames[t]
      ensures forall t :: t in signalDfs ==> signalDfs[t] == strategy(stockDfs.frames[t])
      ensures broker.State() == BrokerState(Opened(builder.initialCash, timeIndex), [])
    {
      var dfs := builder.stockDfs;
      var index := TimeIndexUnion(dfs);
      var t, d :| t in dfs.frames && d in dfs.frames[t];
      assert d in index;
      forall i, j | 0 <= i < j < |index| ensures index[i] != index[j] { }
      var b := builder.Build(index);
      var signals := InitSignalDfs(dfs, strategy);
      this.trader := trader;
      this.stockDfs := dfs;
      this.timeIndex := index;
      this.broker := b;
      this.signalDfs := signals;
      this.nearExpiration := nearExpiration;
    }

    /** `__get_orders`: the trader is asked only on the dates the ticker has a signal row, and
        is shown that row, the ticker's price row and exactly the ticker's open positions. */
    function GetOrders(view: Ledger, date: Date, ticker: Ticker): (orders: seq<Order>)
      requires SignalsAligned() && ticker in signalDfs
      ensures date !in signalDfs[ticker] ==> orders == []
      ensures date in signalDfs[ticker] ==>
        orders == trader(view, date, ticker, signalDfs[ticker][date],
                         stockDfs.frames[ticker][date], OpenPositionsFor(view.positions, ticker))
    {
      if date in signalDfs[ticker] then
        var signal := signalDfs[ticker][date];
        var stockRow := stockDfs.frames[ticker][date];
        var openPositions := OpenPositionsFor(view.positions, ticker);
        trader(view, date, ticker, signal, stockRow, openPositions)
      else []
    }

    /** The orders of every ticker in `ts`, concatenated in that order. */
    function Gathered(view: Ledger, date: Date, ts: seq<Ticker>): (orders: seq<Order>)
      requires SignalsAligned() && forall i :: 0 <= i < |ts| ==> ts[i] in signalDfs
    {
      if ts == [] then []
      else Gathered(view, date, ts[..|ts| - 1]) + GetOrders(view, date, ts[|ts| - 1])
    }

    /** A trader that only orders known tickers makes every gathered order executable later
        (no unknown-ticker lookup in the broker). */
    lemma {:induction false} GatheredKnown(view: Ledger, date: Date, ts: seq<Ticker>)
      requires SignalsAligned() && forall i :: 0 <= i < |ts| ==> ts[i] in signalDfs
      requires TraderSound(trader, stockDfs.frames)
      ensures OrdersKnown(Gathered(view, date, ts), stockDfs.frames)
    {
      if ts != [] {
        GatheredKnown(view, date, ts[..|ts| - 1]);
        var t := ts[|ts| - 1];
        var ps := OpenPositionsFor(view.positions, t);
        assert forall i :: 0 <= i < |ps| ==> ps[i] in ps;
        OrdersKnownAppend(Gathered(view, date, ts[..|ts| - 1]), GetOrders(view, date, t), stockDfs.frames);
      }
    }

    /** One iteration of the run: the broker processes the queue and updates the date's row
        first; then every ticker's orders are gathered and queued, except on the calendar's
        second-to-last date; then the near-expiration close-out queues its orders. */
    function DayStep(s: BrokerState, date: Date): (r: BrokerState)
      requires Wired() && |timeIndex| >= 2 && BrokerOk(s, stockDfs.frames) && date in s.ledger.index
    {
      TickersHaveSignals();
      var updated := Updated(s, broker.processor, [], date);
      var orders := Gathered(updated.ledger, date, stockDfs.tickers);
      var queue := if date != timeIndex[|timeIndex| - 2] then updated.queue + orders else updated.queue;
      BrokerState(updated.ledger, queue + nearExpiration(updated.ledger, date))
    }

    lemma DayStepKeeps(s: BrokerState, date: Date)
      requires Wired() && |timeIndex| >= 2 && BrokerOk(s, stockDfs.frames) && date in s.ledger.index
      ensures var r := DayStep(s, date);
        && BrokerOk(r, stockDfs.frames) && r.ledger.index == s.ledger.index
        && (CashNonNegative(s.ledger) ==> CashNonNegative(r.ledger))
        && (Counted(s.ledger) ==> Counted(r.ledger))
    {
      UpdatedKeepsBroker(s, broker.processor, [], date);
      TickersHaveSignals();
      GatheredKnown(Updated(s, broker.processor, [], date).ledger, date, stockDfs.tickers);
    }

    /** The broker after the run has visited `dates` in order. */
    function RunOver(s: BrokerState, dates: seq<Date>): (r: BrokerState)
      requires Wired() && |timeIndex| >= 2 && BrokerOk(s, stockDfs.frames)
      requires forall i :: 0 <= i < |dates| ==> dates[i] in s.ledger.index
      ensures BrokerOk(r, stockDfs.frames) && r.ledger.index == s.ledger.index
    {
      if dates == [] then s
      else
        var before := RunOver(s, dates[..|dates| - 1]);
        DayStepKeeps(before, dates[|dates| - 1]);
        DayStep(before, dates[|dates| - 1])
    }

    /** Over a whole run, cash never goes negative if it starts non-negative, and every
        transaction stays accounted for as an open position or half of a trade. */
    lemma {:induction false} RunKeepsLedger(s: BrokerState, dates: seq<Date>)
      requires Wired() && |timeIndex| >= 2 && BrokerOk(s, stockDfs.frames)
      requires forall i :: 0 <= i < |dates| ==> dates[i] in s.ledger.index
      ensures CashNonNegative(s.ledger) ==> CashNonNegative(RunOver(s, dates).ledger)
      ensures Counted(s.ledger) ==> Counted(RunOver(s, dates).ledger)
    {
      if dates != [] {
        RunKeepsLedger(s, dates[..|dates| - 1]);
        DayStepKeeps(RunOver(s, dates[..|dates| - 1]), dates[|dates| - 1]);
      }
    }

    /** Visiting one more calendar date is one more DayStep. */
    lemma RunOverNext(s: BrokerState, i: nat)
      requires Wired() && |timeIndex| >= 2 && BrokerOk(s, stockDfs.frames) && s.ledger.index == timeIndex
      requires i < |timeIndex|
      ensures RunOver(s, timeIndex[..i + 1]) == DayStep(RunOver(s, timeIndex[..i]), timeIndex[i])
    {
      var ds := timeIndex[..i + 1];
      assert ds[..|ds| - 1] == timeIndex[..i];
      assert ds[|ds| - 1] == timeIndex[i];
      assert ds != [];
    }

    /** The loop of `run` over the tickers of the signal dict, in key order. */
    method CollectOrders(view: Ledger, date: Date) returns (orders: seq<Order>)
      requires SignalsAligned() && forall i :: 0 <= i < |stockDfs.tickers| ==> stockDfs.tickers[i] in signalDfs
      ensures orders == Gathered(view, date, stockDfs.tickers)
    {
      var tickers := stockDfs.tickers;
      orders := [];
      var k := 0;
      while k < |tickers|
        invariant 0 <= k <= |tickers|
        invariant orders == Gathered(view, date, tickers[..k])
      {
        assert tickers[..k + 1][..k] == tickers[..k];
        orders := orders + GetOrders(view, date, tickers[k]);
        k := k + 1;
      }
      assert tickers[..k] == tickers;
    }

    /** One iteration of `run`'s loop over the calendar. */
    method Step(date: Date)
      requires Valid() && |timeIndex| >= 2 && date in timeIndex
      modifies broker, broker.account
      ensures Valid()
      ensures broker.State() == DayStep(old(broker.State()), date)
    {
      ghost var s := broker.State();
      broker.Update([], date);
      UpdatedKeepsBroker(s, broker.processor, [], date);

      var view := broker.account.State();
      TickersHaveSignals();
      var orders := CollectOrders(view, date);
      GatheredKnown(view, date, stockDfs.tickers);

      var beforeLastDate := timeIndex[|timeIndex| - 2];
      if date != beforeLastDate {
        broker.AddOrders(orders);
      }
      broker.AddOrders(nearExpiration(broker.account.State(), date));
    }

    /** `run`: each calendar date is visited once, in calendar order. */
    method Run()
      requires Valid() && |timeIndex| >= 2
      modifies broker, broker.account
      ensures Valid()
      ensures broker.State() == RunOver(old(broker.State()), timeIndex)
    {
      ghost var s0 := broker.State();
      var i := 0;
      while i < |timeIndex|
        invariant 0 <= i <= |timeIndex|
        invariant Valid()
        invariant BrokerOk(s0, stockDfs.frames) && s0.ledger.index == timeIndex
        invariant broker.State() == RunOver(s0, timeIndex[..i])
      {
        var date := timeIndex[i];
        Step(date);
        RunOverNext(s0, i);
        i := i + 1;
      }
      assert timeIndex[..i] == timeIndex;
    }
  }
}

=== FILE: execution.dfy ===
/** The execution model (ekeko/backtrader/broker.py: Slippage, SlippageOnClose, StockDFWrapper,
    OrderProcessor): price lookups, executability and the cash effect of one order. */
module Execution {
  import opened MarketData
  import opened Orders

  /** A slippage model maps a day's row to the price an order fills at. */
  type Slippage = Row -> real

  /** The default slippage: fill at the day's close. */
  function SlippageOnClose(row: Row): (price: real)
  {
    row.close
  }

  /** The price frames of every ticker together with the slippage model. Looking up a ticker
      that has no frame raises KeyError in Python: every lookup requires a known ticker. */
  datatype StockData = StockData(frames: map<Ticker, Frame>, slippage: Slippage)
  {
    predicate HasRecord(order: Order, date: Date)
      requires order.ticker in frames
    {
      date in frames[order.ticker]
    }

    function ValueAtClose(order: Order, date: Date): (close: real)
      requires order.ticker in frames && HasRecord(order, date)
    {
      frames[order.ticker][date].close
    }

    function WithSlippage(order: Order, date: Date): (price: real)
      requires order.ticker in frames && HasRecord(order, date)
    {
      slippage(frames[order.ticker][date])
    }
  }

  /** Turns orders into transactions. The commission is a flat amount charged per transaction. */
  datatype OrderProcessor = OrderProcessor(data: StockData, commission: real)
  {
    /** An order can execute on exactly the dates its ticker has a record (the non-market branch
        that raises is unreachable: market is the only order type). */
    predicate CanExecuteOrder(order: Order, date: Date)
      requires order.ticker in data.frames
    {
      data.HasRecord(order, date)
    }

    /** The pair (cost, execution price) of executing `order` on `date`. */
    function TransactionCost(order: Order, date: Date): (r: (real, real))
      requires order.ticker in data.frames && data.HasRecord(order, date)
      ensures r.1 == data.WithSlippage(order, date)
      ensures order.IsBuy() ==> r.0 == -(r.1 * order.quantity) - commission
      ensures order.IsSell() ==> r.0 == r.1 * order.quantity - commission
    {
      var executionPrice := data.WithSlippage(order, date);
      var sign := if order.IsBuy() then -1.0 else 1.0;
      (sign * executionPrice * order.quantity - commission, executionPrice)
    }

    function ProcessOrder(order: Order, date: Date): (t: Transaction)
      requires order.ticker in data.frames && CanExecuteOrder(order, date)
      ensures t.order == order && t.executionDate == date && t.commission == commission
      ensures t.executionPrice == data.WithSlippage(order, date)
      ensures Priced(t)
    {
      var (cost, executionPrice) := TransactionCost(order, date);
      Transaction(order, commission, executionPrice, date, cost)
    }

    /** Mark-to-market value of an order's quantity at the day's close: positive for a long
        (BUY) position, negative for a short (SELL) one. */
    function ValueAt(order: Order, date: Date): (v: real)
      requires order.ticker in data.frames && data.HasRecord(order, date)
      ensures order.IsBuy() ==> v == data.ValueAtClose(order, date) * order.quantity
      ensures order.IsSell() ==> v == -(data.ValueAtClose(order, date) * order.quantity)
    {
      var sign := if order.IsBuy() then 1.0 else -1.0;
      sign * data.ValueAtClose(order, date) * order.quantity
    }
  }

  /** With the default slippage, an order fills at the close, so opening it lowers the portfolio
      value (cash plus the mark-to-market value of what was bought or sold short) by exactly
      the commission. */
  lemma FillAtCloseCostsOnlyCommission(p: OrderProcessor, order: Order, date: Date)
    requires forall row :: p.data.slippage(row) == SlippageOnClose(row)
    requires order.ticker in p.data.frames && p.CanExecuteOrder(order, date)
    ensures p.ProcessOrder(order, date).executionPrice == p.data.ValueAtClose(order, date)
    ensures p.ValueAt(order, date) + p.ProcessOrder(order, date).cost == -p.commission
  {
    var row := p.data.frames[order.ticker][date];
    assert p.data.slippage(row) == row.close;
  }
}

=== FILE: lists.dfy ===
/** Sequence helpers that mirror the Python list and dict operations the core relies on. */
module Lists {

  datatype Option<T> = None | Some(value: T)

  /** No element occurs twice (a pandas index on which get_loc returns a single position). */
  predicate Distinct<T(==)>(s: seq<T>)
  {
    forall i, j :: 0 <= i < j < |s| ==> s[i] != s[j]
  }

  /** Sorted without duplicates, the shape of a DatetimeIndex built by Index.union. */
  predicate StrictlyIncreasing(s: seq<int>)
  {
    forall i, j :: 0 <= i < j < |s| ==> s[i] < s[j]
  }

  /** Python's `list.remove(x)`: drops the first element equal to `x` (value equality, as
      dataclasses compare), leaving the others in their order. */
  function RemoveFirst<T(==)>(s: seq<T>, x: T): (r: seq<T>)
    ensures x in s ==> |r| == |s| - 1
    ensures x !in s ==> r == s
  {
    if s == [] then []
    else if s[0] == x then s[1..]
    else [s[0]] + RemoveFirst(s[1..], x)
  }

  /** Exactly one copy of `x` leaves the list, and nothing new enters it. */
  lemma {:induction false} RemoveFirstTakesOne<T>(s: seq<T>, x: T)
    ensures multiset(RemoveFirst(s, x)) == multiset(s) - multiset{x}
    ensures forall y :: y in RemoveFirst(s, x) ==> y in s
  {
    if s != [] {
      assert s == [s[0]] + s[1..];
      if s[0] != x {
        RemoveFirstTakesOne(s[1..], x);
        var rest := RemoveFirst(s[1..], x);
        assert multiset([s[0]] + rest) == multiset{s[0]} + multiset(rest);
      }
    }
  }

  /** `Index.get_loc` on an index without duplicates: the position of `x`. */
  function IndexOf<T(==)>(s: seq<T>, x: T): (i: nat)
    requires x in s
    ensures i < |s| && s[i] == x
  {
    if s[0] == x then 0 else 1 + IndexOf(s[1..], x)
  }

  /** The position found is that of the first occurrence. */
  lemma {:induction false} IndexOfIsFirst<T>(s: seq<T>, x: T)
    requires x in s
    ensures forall j :: 0 <= j < IndexOf(s, x) ==> s[j] != x
  {
    if s[0] != x {
      IndexOfIsFirst(s[1..], x);
    }
  }

  /** `remove` cuts the list at the first occurrence of `x`: what comes before and after it
      stays, in order. */
  lemma {:induction false} RemoveFirstCutsAtIndex<T>(s: seq<T>, x: T)
    requires x in s
    ensures RemoveFirst(s, x) == s[..IndexOf(s, x)] + s[IndexOf(s, x) + 1..]
  {
    if s[0] != x {
      var t := s[1..];
      assert x in t;
      RemoveFirstCutsAtIndex(t, x);
      var i := IndexOf(t, x);
      calc {
        RemoveFirst(s, x);
        [s[0]] + RemoveFirst(t, x);
        [s[0]] + (t[..i] + t[i + 1..]);
        ([s[0]] + t[..i]) + t[i + 1..];
        { assert [s[0]] + t[..i] == s[..i + 1]; assert t[i + 1..] == s[i + 2..]; }
        s[..i + 1] + s[i + 2..];
      }
      assert IndexOf(s, x) == i + 1;
    }
  }
}

=== FILE: market.dfy ===
/** The shapes of the price data the core consumes (ekeko/core/types.py and the Stock_dfs dict). */
module MarketData {
  import opened Lists

  type Ticker = string

  /** A calendar day; only the order of dates matters to the core. */
  type Date = int

  /** One OHLCV row of a ticker's price frame. */
  datatype Row = Row(open: real, high: real, low: real, close: real, volume: real)

  /** A ticker's price frame: the rows it has, keyed by date. A date absent from the map is a
      date on which the ticker has no record. */
  type Frame = map<Date, Row>

  /** The `Stock_dfs` dict: the frames, with the insertion order of its keys, which decides the
      order in which the engine visits tickers. */
  datatype StockDfs = StockDfs(tickers: seq<Ticker>, frames: map<Ticker, Frame>)
  {
    ghost predicate Valid()
    {
      Distinct(tickers) && (forall t :: t in frames <==> t in tickers)
    }
  }
}

=== FILE: orders.dfy ===
/** Orders and transactions (ekeko/backtrader/broker.py, the enums, Order and Transaction). */
module Orders {
  import opened MarketData

  datatype OrderAction = Buy | Sell
  {
    function Opposite(): (a: OrderAction)
      ensures a != this
    {
      if Buy? then Sell else Buy
    }
  }

  /** Only stocks exist, so every `is_stock` test succeeds. */
  datatype InstrumentType = Stock

  /** Only market orders exist, so every `is_market` test succeeds. */
  datatype OrderType = Market

  datatype Order = Order(
    instrumentType: InstrumentType,
    ticker: Ticker,
    quantity: real,
    orderType: OrderType,
    action: OrderAction,
    date: Date)
  {
    predicate IsBuy() { action == Buy }
    predicate IsSell() { action == Sell }
    predicate IsStock() { instrumentType == Stock }
    predicate IsMarket() { orderType == Market }
  }

  /** The execution of an order. `cost` is the signed change in cash. */
  datatype Transaction = Transaction(
    order: Order,
    commission: real,
    executionPrice: real,
    executionDate: Date,
    cost: real)

  /** Cash effect of trading the order's quantity at `price`, before commission:
      a BUY pays the notional, a SELL receives it. */
  function SignedNotional(order: Order, price: real): (v: real)
  {
    (if order.IsBuy() then -1.0 else 1.0) * price * order.quantity
  }

  /** A transaction whose cost is its signed notional less the flat commission, as the
      order processor prices every transaction it produces. */
  predicate Priced(t: Transaction)
  {
    t.cost == SignedNotional(t.order, t.executionPrice) - t.commission
  }

  /** A BUY never brings cash in and a SELL never gives up more than its commission; in both
      directions the commission lowers the cash effect by exactly its amount. */
  lemma CostDirection(t: Transaction)
    requires Priced(t)
    requires t.executionPrice >= 0.0 && t.order.quantity >= 0.0 && t.commission >= 0.0
    ensures t.order.IsBuy() ==> t.cost <= -t.commission
    ensures t.order.IsSell() ==> t.cost >= -t.commission
    ensures t.cost + t.commission == SignedNotional(t.order, t.executionPrice)
  {
    assert t.executionPrice * t.order.quantity >= 0.0;
  }
}

=== FILE: positions.dfy ===
/** Positions and trades (ekeko/backtrader/broker.py, Trade and Position): matching an open
    transaction with a later opposite one and realising the round trip. */
module Positions {
  import opened MarketData
  import opened Orders

  datatype Trade = Trade(
    opening: Transaction,
    closing: Transaction,
    commission: real,
    pnl: real,
    pnlWithoutCommission: real)

  /** An open transaction waiting for the transaction that closes it. */
  datatype Position = Position(transaction: Transaction)
  {
    function Ticker(): (t: Ticker)
    {
      transaction.order.ticker
    }

    /** Closing is all-or-nothing: same ticker, exactly the same quantity, opposite action. */
    predicate IsClosedBy(other: Transaction)
    {
      && transaction.order.IsStock() && other.order.IsStock()
      && transaction.order.ticker == other.order.ticker
      && transaction.order.quantity == other.order.quantity
      && transaction.order.action != other.order.action
    }

    /** Realises the trade. A closing BUY means the position was a short, which profits
        when the price falls. */
    function Close(closing: Transaction): (trade: Trade)
      requires IsClosedBy(closing)
      ensures trade.opening == transaction && trade.closing == closing
      ensures trade.commission == transaction.commission + closing.commission
      ensures closing.order.IsSell() ==>
        trade.pnlWithoutCommission
          == (closing.executionPrice - transaction.executionPrice) * transaction.order.quantity
      ensures closing.order.IsBuy() ==>
        trade.pnlWithoutCommission
          == (transaction.executionPrice - closing.executionPrice) * transaction.order.quantity
      ensures trade.pnl == trade.pnlWithoutCommission - trade.commission
    {
      var commission := transaction.commission + closing.commission;
      var delta := closing.executionPrice - transaction.executionPrice;
      var delta := if closing.order.IsBuy() then -delta else delta;
      var pnlWithoutCommission := delta * transaction.order.quantity;
      Trade(transaction, closing, commission, pnlWithoutCommission - commission, pnlWithoutCommission)
    }

    /** The market order that would close this position on `date`. */
    function GetClosingOrder(date: Date): (o: Order)
      ensures o.IsStock() && o.IsMarket()
      ensures o.ticker == transaction.order.ticker && o.quantity == transaction.order.quantity
      ensures o.action == transaction.order.action.Opposite() && o.date == date
    {
      var action := if transaction.order.IsBuy() then Sell else Buy;
      Order(transaction.order.instrumentType, transaction.order.ticker,
            transaction.order.quantity, Market, action, date)
    }
  }

  /** Any execution of a position's own closing order closes it. */
  lemma ClosingOrderCloses(p: Position, date: Date, closing: Transaction)
    requires closing.order == p.GetClosingOrder(date)
    ensures p.IsClosedBy(closing)
  {
  }

  /** Closing is symmetric: a position opened by `a` is closed by `b` exactly when one opened
      by `b` would be closed by `a`. */
  lemma ClosedBySymmetric(a: Transaction, b: Transaction)
    ensures Position(a).IsClosedBy(b) <==> Position(b).IsClosedBy(a)
  {
  }

  /** A quantity mismatch never closes a position, whatever the actions. */
  lemma QuantityMismatchNeverCloses(p: Position, other: Transaction)
    requires other.order.quantity != p.transaction.order.quantity
    ensures !p.IsClosedBy(other)
  {
  }

  /** The realised PnL of a round trip of priced transactions is the net cash the two moved:
      the trade's PnL is exactly what the account's cash gained or lost. */
  lemma TradePnlIsNetCash(p: Position, closing: Transaction)
    requires p.IsClosedBy(closing) && Priced(p.transaction) && Priced(closing)
    ensures p.Close(closing).pnl == p.transaction.cost + closing.cost
  {
    var o, q := p.transaction, p.transaction.order.quantity;
    assert closing.order.quantity == q;
    if closing.order.IsBuy() {
      assert o.order.IsSell();
      calc {
        p.Close(closing).pnlWithoutCommission;
        (o.executionPrice - closing.executionPrice) * q;
        o.executionPrice * q - closing.executionPrice * q;
        SignedNotional(o.order, o.executionPrice) + SignedNotional(closing.order, closing.executionPrice);
      }
    } else {
      assert o.order.IsBuy();
      calc {
        p.Close(closing).pnlWithoutCommission;
        (closing.executionPrice - o.executionPrice) * q;
        closing.executionPrice * q - o.executionPrice * q;
        SignedNotional(o.order, o.executionPrice) + SignedNotional(closing.order, closing.executionPrice);
      }
    }
  }
}
